=== FILE: README.md ===
# Note sequence and sequence serialisation

This project is a Dafny model of two parts of the Performer sequencer's data model.

- **The note sequence.** A step packs eleven parameters into two raw words:
  - a 32-bit word holds nine fields: gate, slide, gate probability, length, length variation range and probability, note, and note variation range and probability;
  - a 16-bit word holds retrigger and retrigger probability.

  The sequence-level properties are scale, root note, divisor, reset measure, run mode, first step and last step. Every property except the run mode has a clamping setter; `setRunMode` stores the mode as given. The scale, root note and step edits add `value` to the current value; the divisor, reset-measure and run-mode edits go through the `ModelUtils` adjusters first. The `Layer` enumeration and its display names are modelled too.
- **The sequence serialiser.** `Sequence::write` emits the play mode, the first step and the last step, in that order. It then writes the step data of the note or the curve sequence, depending on the mode of the owning track. `Sequence::read` consumes the stream in the same order.

Modules and files:

| file | module | models |
|---|---|---|
| `bit_field.dfy` | `BitField` | Mask/shift get and set on `bv32` and `bv16` words (`BitField<Offset, Bits>`), and conversion between a byte and the number it denotes. |
| `bounded_value.dfy` | `BoundedValue` | The zero-based codec of `UnsignedValue<Bits>` and `SignedValue<Bits>`. |
| `note_step.dfy` | `NoteStep` | `NoteSequence::Step`: field layout, raw access, typed getters and setters, toggles, and the unpacked view `StepValues`. |
| `note_layer.dfy` | `NoteLayer` | `NoteSequence::Layer` and `layerName`. |
| `note_sequence.dfy` | `NoteSequenceModel` | The sequence record, its setters and edits (clamping for every property but the run mode), `selectedScale` / `selectedRootNote`, the divisor table guard, and arbitrary sequences of edits. |
| `sequence_io.dfy` | `SequenceIo` | `Sequence::write` / `Sequence::read` over an item stream. |
| `option.dfy` | `Optional` | `Option<T>`. |

Parameters stand in for what the model cannot see:

- **`Config`.** Holds the build-time and project constants: `CONFIG_STEP_COUNT`, `Scale::Count`, and the static `_defaultScale` and `_defaultRootNote`. `ValidConfig` asks for `1 <= stepCount <= 256` and `1 <= scaleCount <= 128`, so that the `uint8_t` / `int8_t` members can hold every index.
- **`Utils`.** Holds the `ModelUtils` helpers as uninterpreted functions: `indexToDivisor`, `divisorToIndex`, `adjustedByDivisor`, `adjustedByPowerOfTwo` and `adjustedEnum`.
- **The track-mode lookup.** `context.model.project().track(index).mode()` is a function `int -> TrackMode` applied to `index`.

How the step is modelled:

- **Two views.** A step is the pair of raw words `Step(data0: bv32, data1: bv16)`. `Unpack` gives its logical view `StepValues`: one field per typed getter.
- **Setter contracts.** Every typed setter is specified against that view: `Unpack(SetNote(s, v)) == Unpack(s).(note := v)`. This one equation says three things:
  - the getter returns `v` after the setter;
  - every other field of both words reads as before;
  - nothing else in the step's meaning changes.
- **Bit-level facts.** Separate lemmas state the underlying bit facts:
  - word 0's fields are disjoint and use all 32 bits; word 1's two fields are disjoint and use 6 of its 16 bits;
  - writing one field keeps every other field's bits;
  - the stored raw value is `v - Min`.
- **Proof shape.** Word 0 has one `AccessOf...` lemma and one `FrameOf...` lemma per field, not one lemma quantified over the field. Bytes are turned into numbers by `ByteToNat` / `NatToByte`, not by `as int` casts. Both choices keep each bit-vector proof obligation small enough for the solver; neither adds behaviour.

Two behaviours worth stating outright:

- **Step setters do not clamp.** Each assigns straight into its `BitField`, so each step setter requires its value in the field's range.
- **`setRunMode` stores the mode as given.** Only `editRunMode` goes through `ModelUtils::adjustedEnum`.

## Model

`SequenceIo.Header`, the three header items `write` emits, has no row of its own: the `SequenceIo.Write` and `SequenceIo.Read` rows state what it means.

| member | source | states |
|---|---|---|
| `BitField.Get32` | src/apps/sequencer/model/NoteSequence.h:136-147 | Reading a bit field of a 32-bit word yields a value that fits the field's width. |
| `BitField.Get16` | src/apps/sequencer/model/NoteSequence.h:148-153 | The same for a field of the 16-bit word. |
| `BitField.Set32` | src/apps/sequencer/model/NoteSequence.h:136-147 | Assigning a value that fits a bit field stores it exactly (reading the field back gives it), and every bit outside the field keeps its value. |
| `BitField.Set16` | src/apps/sequencer/model/NoteSequence.h:148-153 | The same for a field of the 16-bit word. |
| `BitField.Set32OfGet32` | src/apps/sequencer/model/NoteSequence.h:136-147 | Writing back the value a field already holds leaves the word unchanged. |
| `BitField.NatToByte` | src/apps/sequencer/model/NoteSequence.h:23-31 | Every number below 128, the widest field's range, has a byte that denotes it. |
| `BitField.ByteToNatStrictlyMonotone` | src/apps/sequencer/model/NoteSequence.h:23-31 | Byte order and the order of the numbers they denote agree. |
| `BoundedValue.Signed` | src/apps/sequencer/model/NoteSequence.h:27-30 | A signed value of `bits` bits starts at `-2^(bits-1)`. |
| `BoundedValue.Encode` | src/apps/sequencer/model/NoteSequence.h:104-120 | A value in range is stored as `v - Min`: below `2^bits`, and zero exactly for the minimum. |
| `BoundedValue.Decode` | src/apps/sequencer/model/NoteSequence.h:104-119 | A raw field below `2^bits` reads back as a value in range, the minimum exactly for raw 0. |
| `BoundedValue.DecodeEncode` | src/apps/sequencer/model/NoteSequence.h:104-120 | Getter after setter returns the value that was set, for any minimum and width. |
| `BoundedValue.EncodeDecode` | src/apps/sequencer/model/NoteSequence.h:104-120 | Setter after getter stores the raw field that was read. |
| `BoundedValue.EncodeMonotone` | src/apps/sequencer/model/NoteSequence.h:104-120 | The stored encoding preserves the order of logical values. |
| `NoteStep.RangesMatchValueTypes` | src/apps/sequencer/model/NoteSequence.h:23-31 | Each field's width and range are those of its `UnsignedValue` / `SignedValue` type: 3-bit unsigned 0..7, 4-bit signed -8..7, 7-bit signed -64..63, flags 0..1. |
| `NoteStep.LayoutIsSound` | src/apps/sequencer/model/NoteSequence.h:136-153 | The nine word-0 fields lie inside 32 bits, are pairwise disjoint and together cover all 32 bits. The two word-1 fields lie inside 16 bits, are disjoint and take 6 bits together. |
| `NoteStep.AccessOfGate` | src/apps/sequencer/model/NoteSequence.h:138 | The `gate` accessor reads exactly the bits its layout row gives, and its largest raw value is the field's full mask. |
| `NoteStep.AccessOfSlide` | src/apps/sequencer/model/NoteSequence.h:139 | The `slide` accessor reads exactly the bits its layout row gives, and its largest raw value is the field's full mask. |
| `NoteStep.AccessOfGateProbability` | src/apps/sequencer/model/NoteSequence.h:140 | The `gateProbability` accessor reads exactly the bits its layout row gives, and its largest raw value is the field's full mask. |
| `NoteStep.AccessOfLength` | src/apps/sequencer/model/NoteSequence.h:141 | The `length` accessor reads exactly the bits its layout row gives, and its largest raw value is the field's full mask. |
| `NoteStep.AccessOfLengthVariationRange` | src/apps/sequencer/model/NoteSequence.h:142 | The `lengthVariationRange` accessor reads exactly the bits its layout row gives, and its largest raw value is the field's full mask. |
| `NoteStep.AccessOfLengthVariationProbability` | src/apps/sequencer/model/NoteSequence.h:143 | The `lengthVariationProbability` accessor reads exactly the bits its layout row gives, and its largest raw value is the field's full mask. |
| `NoteStep.AccessOfNote` | src/apps/sequencer/model/NoteSequence.h:144 | The `note` accessor reads exactly the bits its layout row gives, and its largest raw value is the field's full mask. |
| `NoteStep.AccessOfNoteVariationRange` | src/apps/sequencer/model/NoteSequence.h:145 | The `noteVariationRange` accessor reads exactly the bits its layout row gives, and its largest raw value is the field's full mask. |
| `NoteStep.AccessOfNoteVariationProbability` | src/apps/sequencer/model/NoteSequence.h:146 | The `noteVariationProbability` accessor reads exactly the bits its layout row gives, and its largest raw value is the field's full mask. |
| `NoteStep.AccessFollowsLayout1` | src/apps/sequencer/model/NoteSequence.h:148-153 | Each word-1 accessor reads exactly the bits its layout row gives, and its largest raw value is the field's full mask. |
| `NoteStep.Get0` | src/apps/sequencer/model/NoteSequence.h:136-147 | A word-0 field never reads above its largest raw value. |
| `NoteStep.Get1` | src/apps/sequencer/model/NoteSequence.h:148-153 | A word-1 field never reads above its largest raw value. |
| `NoteStep.Set0` | src/apps/sequencer/model/NoteSequence.h:136-147 | Writing a word-0 field with a value that fits stores that value. |
| `NoteStep.Set1` | src/apps/sequencer/model/NoteSequence.h:148-153 | Writing a word-1 field with a value that fits stores that value. |
| `NoteStep.Frame0` | src/apps/sequencer/model/NoteSequence.h:136-147 | Writing one word-0 field leaves every other word-0 field as it was. |
| `NoteStep.Frame1` | src/apps/sequencer/model/NoteSequence.h:148-153 | Writing one word-1 field leaves the other field and the ten unused bits as they were. |
| `NoteStep.FieldsAfterSet0` | src/apps/sequencer/model/NoteSequence.h:72-125 | After a word-0 write, the step's eleven raw fields are the old ones with only that field replaced. |
| `NoteStep.FieldsAfterSet1` | src/apps/sequencer/model/NoteSequence.h:72-125 | The same for a word-1 write. |
| `NoteStep.DecodeField0` | src/apps/sequencer/model/NoteSequence.h:72-124 | A getter turns any raw field content that fits into a value inside the field's range (`Min + field`). |
| `NoteStep.DecodeField1` | src/apps/sequencer/model/NoteSequence.h:89-94 | A retrigger getter turns any raw content that fits into a value inside 0..7. |
| `NoteStep.EncodeField0` | src/apps/sequencer/model/NoteSequence.h:73-125 | A setter's stored content fits the field, denotes `v - Min`, and reads back as the value that was set. |
| `NoteStep.DecodeFieldIsDecode0` | src/apps/sequencer/model/NoteSequence.h:72-124 | A word-0 getter decodes its field with the `UnsignedValue` / `SignedValue` codec of the field's value type: `Min + raw`. |
| `NoteStep.EncodeFieldIsEncode0` | src/apps/sequencer/model/NoteSequence.h:73-125 | A word-0 field's range is its value type's range, and a setter stores that value type's encoding `v - Min`. |
| `NoteStep.DecodeFieldIsDecode1` | src/apps/sequencer/model/NoteSequence.h:89-94 | Retrigger and retrigger probability decode with the `UnsignedValue<3>` codec. |
| `NoteStep.EncodeFieldIsEncode1` | src/apps/sequencer/model/NoteSequence.h:90-95 | Their range is that of `UnsignedValue<3>`, and their setters store its encoding. |
| `NoteStep.EncodeField1` | src/apps/sequencer/model/NoteSequence.h:90-95 | The same for retrigger and retrigger probability, whose minimum is 0, so the content denotes `v` itself. |
| `NoteStep.InterpretWith0` | src/apps/sequencer/model/NoteSequence.h:72-125 | Replacing one raw field changes exactly one logical value, to that field's decoding. |
| `NoteStep.Gate` | src/apps/sequencer/model/NoteSequence.h:72 | `gate()` is true exactly when its one-bit field holds 1. |
| `NoteStep.GateProbability` | src/apps/sequencer/model/NoteSequence.h:78 | `gateProbability()` returns the raw content of its 3-bit field (its `Min` is 0), a value in 0..7. |
| `NoteStep.Slide` | src/apps/sequencer/model/NoteSequence.h:83 | `slide()` is true exactly when its one-bit field holds 1. |
| `NoteStep.Retrigger` | src/apps/sequencer/model/NoteSequence.h:89 | `retrigger()` returns the raw content of its 3-bit field (its `Min` is 0), a value in 0..7. |
| `NoteStep.RetriggerProbability` | src/apps/sequencer/model/NoteSequence.h:94 | `retriggerProbability()` returns the raw content of its 3-bit field (its `Min` is 0), a value in 0..7. |
| `NoteStep.Length` | src/apps/sequencer/model/NoteSequence.h:99 | `length()` returns the raw content of its 3-bit field (its `Min` is 0), a value in 0..7. |
| `NoteStep.LengthVariationRange` | src/apps/sequencer/model/NoteSequence.h:104 | `lengthVariationRange()` reads its 4-bit field as `Min + raw` with `Min = -8`, a value in -8..7. |
| `NoteStep.LengthVariationProbability` | src/apps/sequencer/model/NoteSequence.h:109 | `lengthVariationProbability()` returns the raw content of its 3-bit field (its `Min` is 0), a value in 0..7. |
| `NoteStep.Note` | src/apps/sequencer/model/NoteSequence.h:114 | `note()` reads its 7-bit field as `Min + raw` with `Min = -64`, a value in -64..63. |
| `NoteStep.NoteVariationRange` | src/apps/sequencer/model/NoteSequence.h:119 | `noteVariationRange()` reads its 7-bit field as `Min + raw` with `Min = -64`, a value in -64..63. |
| `NoteStep.NoteVariationProbability` | src/apps/sequencer/model/NoteSequence.h:124 | `noteVariationProbability()` returns the raw content of its 3-bit field (its `Min` is 0), a value in 0..7. |
| `NoteStep.Unpack` | src/apps/sequencer/model/NoteSequence.h:72-124 | Every getter of every step returns a value inside its field's range. |
| `NoteStep.SetValue0` | src/apps/sequencer/model/NoteSequence.h:72-125 | Setting any word-0 field to an in-range value stores its encoding in that field, changes that getter to the value and no other getter, and leaves word 1 untouched. |
| `NoteStep.SetValue1` | src/apps/sequencer/model/NoteSequence.h:89-96 | Setting either word-1 field stores its encoding in that field, changes that getter only, leaves word 0 untouched, and keeps the unused bits of word 1. |
| `NoteStep.SetGate` | src/apps/sequencer/model/NoteSequence.h:73 | `gate()` returns the flag set; no other getter changes. |
| `NoteStep.SetSlide` | src/apps/sequencer/model/NoteSequence.h:84 | `slide()` returns the flag set; no other getter changes. |
| `NoteStep.SetGateProbability` | src/apps/sequencer/model/NoteSequence.h:79 | `gateProbability()` returns the value set; no other getter changes. |
| `NoteStep.SetLength` | src/apps/sequencer/model/NoteSequence.h:100 | `length()` returns the value set; no other getter changes. |
| `NoteStep.SetLengthVariationRange` | src/apps/sequencer/model/NoteSequence.h:104-105 | `lengthVariationRange()` returns the signed value set (stored offset by `Min`); no other getter changes. |
| `NoteStep.SetLengthVariationProbability` | src/apps/sequencer/model/NoteSequence.h:110 | `lengthVariationProbability()` returns the value set; no other getter changes. |
| `NoteStep.SetNote` | src/apps/sequencer/model/NoteSequence.h:114-115 | `note()` returns the signed value set (stored offset by `Min`); no other getter changes. |
| `NoteStep.SetNoteVariationRange` | src/apps/sequencer/model/NoteSequence.h:119-120 | `noteVariationRange()` returns the signed value set; no other getter changes. |
| `NoteStep.SetNoteVariationProbability` | src/apps/sequencer/model/NoteSequence.h:125 | `noteVariationProbability()` returns the value set; no other getter changes. |
| `NoteStep.SetRetrigger` | src/apps/sequencer/model/NoteSequence.h:90 | `retrigger()` returns the value set; no other getter changes, and word 0 is untouched. |
| `NoteStep.SetRetriggerProbability` | src/apps/sequencer/model/NoteSequence.h:95 | `retriggerProbability()` returns the value set; no other getter changes, and word 0 is untouched. |
| `NoteStep.ToggleGate` | src/apps/sequencer/model/NoteSequence.h:74 | `toggleGate` negates the gate and changes no other getter. |
| `NoteStep.ToggleSlide` | src/apps/sequencer/model/NoteSequence.h:85 | `toggleSlide` negates the slide flag and changes no other getter. |
| `NoteStep.ToggleGateTwice` | src/apps/sequencer/model/NoteSequence.h:74 | Toggling the gate twice restores the step bit for bit. |
| `NoteStep.ToggleSlideTwice` | src/apps/sequencer/model/NoteSequence.h:85 | Toggling the slide flag twice restores the step bit for bit. |
| `NoteStep.Overwrite` | src/apps/sequencer/model/NoteSequence.h:72-125 | Calling the eleven setters on any step yields a step whose getters return exactly the values set. |
| `NoteStep.Pack` | src/apps/sequencer/model/NoteSequence.h:72-125 | Every combination of in-range values is some step's content: a right inverse of `Unpack` (`Pack(Unpack(s))` clears the ten unused bits of word 1, so it is not a left inverse). |
| `NoteLayer.Index` | src/apps/sequencer/model/NoteSequence.h:33-46 | The enum positions are 0..11, with `Last` last, and position `i` of the data-layer list is the layer at index `i`. |
| `NoteLayer.LayerName` | src/apps/sequencer/model/NoteSequence.h:48-64 | `layerName` gives a non-empty name for each data layer and no name exactly for `Last`. |
| `NoteLayer.LayerNamed` | src/apps/sequencer/model/NoteSequence.h:48-64 | The inverse lookup: a name found belongs to a data layer whose `layerName` is that name. |
| `NoteLayer.LayerNamedOfLayerName` | src/apps/sequencer/model/NoteSequence.h:48-64 | Every data layer's name leads back to that layer. |
| `NoteLayer.LayerNamesDistinct` | src/apps/sequencer/model/NoteSequence.h:48-64 | Two data layers have the same name exactly when they are the same layer. |
| `NoteLayer.DataLayersComplete` | src/apps/sequencer/model/NoteSequence.h:33-46 | The data-layer list holds every layer but `Last`, each exactly once, at its enum position. |
| `NoteSequenceModel.Clamp` | src/apps/sequencer/model/NoteSequence.h:166 | `clamp` returns the point of the range nearest to the value. |
| `NoteSequenceModel.NearestIsUnique` | src/apps/sequencer/model/NoteSequence.h:164-289 | The nearest point of a range is unique, so each clamping contract fixes its result. |
| `NoteSequenceModel.NearestOfInRange` | src/apps/sequencer/model/NoteSequence.h:164-289 | An in-range input is stored unchanged. |
| `NoteSequenceModel.NearestOfOutOfRange` | src/apps/sequencer/model/NoteSequence.h:164-289 | An out-of-range input is stored as the nearest bound: the lower one below the range, the upper one above it. |
| `NoteSequenceModel.SetScale` | src/apps/sequencer/model/NoteSequence.h:165-167 | The scale ends up at the point of `[-1, Scale::Count - 1]` nearest to the input; nothing else changes. |
| `NoteSequenceModel.EditScale` | src/apps/sequencer/model/NoteSequence.h:169-171 | The scale moves by `value` and is clamped as by `setScale`, whatever `shift` is; nothing else changes. |
| `NoteSequenceModel.SelectedScaleIndex` | src/apps/sequencer/model/NoteSequence.h:177-179 | The scale looked up is the project default when the scale is negative and the sequence's own otherwise; it is a valid scale index when the default is. |
| `NoteSequenceModel.SetRootNote` | src/apps/sequencer/model/NoteSequence.h:184-186 | The root note ends up at the point of `[-1, 11]` nearest to the input; nothing else changes. |
| `NoteSequenceModel.EditRootNote` | src/apps/sequencer/model/NoteSequence.h:188-190 | The root note moves by `value` and is clamped, whatever `shift` is; nothing else changes. |
| `NoteSequenceModel.SelectedRootNote` | src/apps/sequencer/model/NoteSequence.h:200-202 | The default root note when the root note is negative, the sequence's own otherwise; never the -1 sentinel, and a note 0..11 when the default is. |
| `NoteSequenceModel.SetDivisor` | src/apps/sequencer/model/NoteSequence.h:207-209 | The divisor ends up at the point of `[1, 192]` nearest to the input; nothing else changes. |
| `NoteSequenceModel.SetIndexedDivisor` | src/apps/sequencer/model/NoteSequence.h:212-217 | A non-positive table result leaves the sequence unchanged; a positive one is clamped into `[1, 192]` and stored, with nothing else changed. |
| `NoteSequenceModel.EditDivisor` | src/apps/sequencer/model/NoteSequence.h:219-221 | The divisor becomes the table-adjusted divisor clamped into `[1, 192]`; nothing else changes. |
| `NoteSequenceModel.SetResetMeasure` | src/apps/sequencer/model/NoteSequence.h:231-233 | The reset measure ends up at the point of `[0, 128]` nearest to the input; nothing else changes. |
| `NoteSequenceModel.EditResetMeasure` | src/apps/sequencer/model/NoteSequence.h:235-237 | The reset measure becomes the power-of-two adjusted value clamped into `[0, 128]`; nothing else changes. |
| `NoteSequenceModel.SetRunMode` | src/apps/sequencer/model/NoteSequence.h:250-252 | The run mode is stored as given, with no clamping; nothing else changes. |
| `NoteSequenceModel.EditRunMode` | src/apps/sequencer/model/NoteSequence.h:254-256 | The run mode becomes the enum-adjusted mode; nothing else changes. |
| `NoteSequenceModel.SetFirstStep` | src/apps/sequencer/model/NoteSequence.h:265-267 | The first step ends up at the point of `[0, lastStep]` nearest to the input, so it never passes the last step; nothing else changes. |
| `NoteSequenceModel.EditFirstStep` | src/apps/sequencer/model/NoteSequence.h:269-271 | The first step moves by `value` and is clamped into `[0, lastStep]`; nothing else changes. |
| `NoteSequenceModel.SetLastStep` | src/apps/sequencer/model/NoteSequence.h:280-282 | The last step ends up at the point of `[firstStep, CONFIG_STEP_COUNT - 1]` nearest to the input, so it never falls below the first step; nothing else changes. |
| `NoteSequenceModel.EditLastStep` | src/apps/sequencer/model/NoteSequence.h:284-286 | The last step moves by `value` and is clamped into `[firstStep, CONFIG_STEP_COUNT - 1]`; nothing else changes. |
| `NoteSequenceModel.SetStep` | src/apps/sequencer/model/NoteSequence.h:297-298 | Writing through `step(index)` replaces that step only. |
| `NoteSequenceModel.Apply` | src/apps/sequencer/model/NoteSequence.h:164-298 | Every setter and edit keeps all property ranges, including `0 <= firstStep <= lastStep <= CONFIG_STEP_COUNT - 1`, and only a step write touches the steps. |
| `NoteSequenceModel.ApplyAll` | src/apps/sequencer/model/NoteSequence.h:264-289 | Any sequence of setter and edit calls keeps every range, including `0 <= firstStep <= lastStep <= CONFIG_STEP_COUNT - 1`. |
| `NoteSequenceModel.ApplyAllAppend` | src/apps/sequencer/model/NoteSequence.h:164-298 | Running two lists of calls one after the other is the same as running their concatenation. |
| `SequenceIo.StepData` | src/apps/sequencer/model/Sequence.cpp:11-14 | Note-sequence data is written exactly when the track at `index` is in Note mode, curve-sequence data exactly when it is in Curve mode, and nothing otherwise. |
| `SequenceIo.Write` | src/apps/sequencer/model/Sequence.cpp:5-15 | `write` appends play mode, first step and last step, in that order, before any step data, and keeps what was already written. |
| `SequenceIo.ReadInt` | src/apps/sequencer/model/Sequence.cpp:19-21 | A header read takes the next item when it is a header value. |
| `SequenceIo.Read` | src/apps/sequencer/model/Sequence.cpp:17-27 | `read` takes play mode, first step and last step from the first three items, in that order, then in Note or Curve mode sets the selected sequence from the fourth item (and in any other mode reads nothing more), leaves the rest of the stream for the next reader, and leaves the sequence that the track mode does not select as it was. |
| `SequenceIo.ReadWrite` | src/apps/sequencer/model/Sequence.cpp:5-27 | Reading what `write` produced, with the same mode at the same index, restores play mode, first step and last step in order, then the selected step data, and stops exactly where the next data begins. Only the header half comes from `Sequence.cpp`; the step-data half holds because a step-data item carries the sequence itself, which stands in for the nested `noteSequence.read` / `curveSequence.read`. |
| `SequenceIo.ReadWriteRestores` | src/apps/sequencer/model/Sequence.cpp:5-27 | With the mode unchanged, and the sequence read into already holding the writer's data for the sequence the mode does not select, read after write gives back the whole sequence and consumes the whole stream. As for `ReadWrite`, only the header half comes from `Sequence.cpp`; the step data comes back because its item carries the sequence itself. |
| `SequenceIo.ReadInOtherModeTakesHeaderOnly` | src/apps/sequencer/model/Sequence.cpp:17-27 | A track in neither Note nor Curve mode reads the three header fields and nothing more; everything after them stays in the stream. |

## Left out

- `printScale`, `printRootNote`, `printDivisor`, `printResetMeasure`, `printRunMode`, `printFirstStep`, `printLastStep`: left out because they only format text through `StringBuilder`, `Scale::get(...).name()` and `Types::printNote`, none of which is part of this model.
- `NoteSequenceModel.SelectedScaleIndex`: returns the index passed to `Scale::get`, not the `Scale` object, because the scale table is not part of this model.
- `NoteSequenceModel.IndexedDivisor`: models `indexedDivisor` as the uninterpreted `divisorToIndex` applied to the divisor. Nothing more can be stated without the divisor table, so it carries no contract and has no row under "## Model".
- `ModelUtils` (`indexToDivisor`, `divisorToIndex`, `adjustedByDivisor`, `adjustedByPowerOfTwo`, `adjustedEnum`): uninterpreted function parameters, because their tables and bodies are not part of this model.
- Members declared without a body: `clear`, `clearSteps`, `setGates`, `setNotes`, `shiftSteps`, `duplicateSteps`, `layerValue`, `setLayerValue`, `layerRange`, `Step::clear`, `Step::write` / `Step::read`, and `NoteSequence::write` / `NoteSequence::read`. Their definitions are not part of this model.
- Out-of-range step setters: each typed step setter requires its value in the field's range, because what `BitField` does with a value that does not fit is not part of this model.
- `BoundedValue.Signed`: takes `SignedValue<Bits>::Min` to be `-2^(Bits-1)` (so -8 for 4 bits, -64 for 7 bits), because the defining header is not part of this model.
- `NoteSequenceModel.Clamp`: requires `lo <= hi`. `clamp` itself is not part of this model, and every call in the sequence keeps its bounds ordered while the invariant holds.
- `NoteSequenceModel.SetLastStep`: requires `firstStep <= CONFIG_STEP_COUNT - 1`, which the sequence invariant guarantees. The result of `clamp` with crossed bounds is unknown.
- 32-bit `int` overflow: `x() + value` in the edits is taken as exact, because the stored property is small (at most 255) and `value` is an encoder delta of a few steps. The `int`-to-`uint8_t`/`int8_t` stores are taken as exact, because every clamped result fits the storage type under `ValidConfig`.
- `Types::RunMode`: kept as its underlying integer, because its enumerators are not part of this model.
- `SequenceIo.Write`, `SequenceIo.Read`: the concrete byte format of the reader and writer is not modelled. Each header field is one item and each nested step-data write is one item carrying the sequence, so the nested `noteSequence.read` / `curveSequence.read` is taken to give back what was written. `CurveSequence` is a type parameter. A missing or mistyped item makes `Read` return `None`; the real reader's behaviour at the end of its data is not part of this model.
- Reading with a track mode different from the writer's, case by case:
  - Note against Curve: the real reader parses the other sequence's bytes as its own, while the model's tagged items make `Read` return `None`.
  - A reader in neither mode: model and program both read only the header and leave the step data in the stream (`SequenceIo.ReadInOtherModeTakesHeaderOnly`).
  - A writer in neither mode: both take the next item as step data, but the model does so only when that item carries the right tag.

  Apart from the reader in neither mode, no lemma relates the model to the program in these cases.
- `SequenceIo.Read`: `_sequence.noteSequence` and `_sequence.curveSequence` are modelled as two independent fields that keep their own values. `Sequence.h` is not part of this model, so if `_sequence` is a union sharing storage, a read of one would also change what the other holds, which the model does not say.
- `SequenceIo.TrackMode`: besides Note and Curve, any other track mode writes and reads no step data, as the `switch` without a default does. `Track::Mode` itself is not part of this model.
- Audio binding, real-time and concurrency concerns: there is no logic to model there.

=== FILE: bit_field.dfy ===
/**
 Bit-packed field access on fixed-width raw words.

 A field is `width` bits starting at bit `offset` of the word. `Get` masks and
 shifts the field out; `Set` clears the field's bits and ORs the new value in.
 This is the behaviour the step record relies on from its `BitField<Offset, Bits>`
 members: a field value that fits the width is stored exactly, and no other bit
 of the word changes.
 */
module BitField {

  /** The low `width` bits set. */
  function Mask32(width: bv32): (m: bv32)
    requires width <= 32
  {
    if width == 32 then 0xFFFF_FFFF else (1 << width) - 1
  }

  /** True when the field `[offset, offset + width)` lies inside a 32-bit word. */
  predicate Fits32(offset: bv32, width: bv32) {
    offset <= 32 && width <= 32 - offset
  }

  function Get32(w: bv32, offset: bv32, width: bv32): (r: bv32)
    requires Fits32(offset, width)
    ensures r <= Mask32(width)
  {
    (w >> offset) & Mask32(width)
  }

  function Set32(w: bv32, offset: bv32, width: bv32, v: bv32): (r: bv32)
    requires Fits32(offset, width)
    requires v <= Mask32(width)
    ensures Get32(r, offset, width) == v
    // bits outside the field keep their value
    ensures r & !(Mask32(width) << offset) == w & !(Mask32(width) << offset)
  {
    (w & !(Mask32(width) << offset)) | (v << offset)
  }

  /** Writing back the value a field already holds leaves the word as it was. */
  lemma Set32OfGet32(w: bv32, offset: bv32, width: bv32)
    requires Fits32(offset, width)
    ensures Set32(w, offset, width, Get32(w, offset, width)) == w
  {
  }


  function Mask16(width: bv16): (m: bv16)
    requires width <= 16
  {
    if width == 16 then 0xFFFF else (1 << width) - 1
  }

  predicate Fits16(offset: bv16, width: bv16) {
    offset <= 16 && width <= 16 - offset
  }

  function Get16(w: bv16, offset: bv16, width: bv16): (r: bv16)
    requires Fits16(offset, width)
    ensures r <= Mask16(width)
  {
    (w >> offset) & Mask16(width)
  }

  function Set16(w: bv16, offset: bv16, width: bv16, v: bv16): (r: bv16)
    requires Fits16(offset, width)
    requires v <= Mask16(width)
    ensures Get16(r, offset, width) == v
    ensures r & !(Mask16(width) << offset) == w & !(Mask16(width) << offset)
  {
    (w & !(Mask16(width) << offset)) | (v << offset)
  }


  //----------------------------------------
  // Small field values as numbers
  //----------------------------------------

  // A field value is at most 7 bits wide and travels as a byte. These two
  // functions convert between a byte and the number it denotes bit by bit,
  // with constant masks and comparisons only.

  /** The number a byte denotes. */
  function ByteToNat(x: bv8): (n: nat)
    ensures n < 256
  {
    (if x & 1 != 0 then 1 else 0) + (if x & 2 != 0 then 2 else 0)
    + (if x & 4 != 0 then 4 else 0) + (if x & 8 != 0 then 8 else 0)
    + (if x & 16 != 0 then 16 else 0) + (if x & 32 != 0 then 32 else 0)
    + (if x & 64 != 0 then 64 else 0) + (if x & 128 != 0 then 128 else 0)
  }

  /** The byte denoting `n`, built from its binary digits, most significant first. */
  function NatToByte(n: nat): (x: bv8)
    requires n < 128
    ensures ByteToNat(x) == n
    ensures x < 128
  {
    var b6 := n >= 64;
    var n5 := if b6 then n - 64 else n;
    var b5 := n5 >= 32;
    var n4 := if b5 then n5 - 32 else n5;
    var b4 := n4 >= 16;
    var n3 := if b4 then n4 - 16 else n4;
    var b3 := n3 >= 8;
    var n2 := if b3 then n3 - 8 else n3;
    var b2 := n2 >= 4;
    var n1 := if b2 then n2 - 4 else n2;
    var b1 := n1 >= 2;
    var n0 := if b1 then n1 - 2 else n1;
    (if b6 then 64 else 0) | (if b5 then 32 else 0) | (if b4 then 16 else 0)
    | (if b3 then 8 else 0) | (if b2 then 4 else 0) | (if b1 then 2 else 0)
    | (if n0 == 1 then 1 else 0)
  }

  /** Byte order and number order agree. */
  lemma ByteToNatStrictlyMonotone(x: bv8, y: bv8)
    ensures x < y <==> ByteToNat(x) < ByteToNat(y)
  {
  }
}

=== FILE: bounded_value.dfy ===
/**
 The bounded-value codec behind `UnsignedValue<Bits>` and `SignedValue<Bits>`.

 A bounded value of `bits` bits with minimum `min` covers the logical range
 `[min, min + 2^bits - 1]` and is stored zero-based: `raw = logical - min`.
 Unsigned values start at 0; signed values start at `-2^(bits-1)`.
 */
module BoundedValue {

  function Pow2(n: nat): (p: nat)
    ensures p >= 1
  {
    if n == 0 then 1 else 2 * Pow2(n - 1)
  }

  datatype Bounded = Bounded(bits: nat, min: int)

  /** `UnsignedValue<bits>` */
  function Unsigned(bits: nat): (b: Bounded)
    ensures b.bits == bits && b.min == 0
  {
    Bounded(bits, 0)
  }

  /** `SignedValue<bits>`: the two's-complement range of `bits` bits. */
  function Signed(bits: nat): (b: Bounded)
    requires bits >= 1
    ensures b.bits == bits
    ensures b.min + Pow2(bits - 1) == 0
  {
    Bounded(bits, -(Pow2(bits - 1) as int))
  }

  function Max(b: Bounded): int {
    b.min + Pow2(b.bits) - 1
  }

  predicate InRange(b: Bounded, v: int) {
    b.min <= v <= Max(b)
  }

  /** The raw, zero-based encoding the setter stores. */
  function Encode(b: Bounded, v: int): (raw: nat)
    requires InRange(b, v)
    ensures raw < Pow2(b.bits)
    ensures raw == 0 <==> v == b.min
  {
    v - b.min
  }

  /** The logical value the getter returns for a raw field. */
  function Decode(b: Bounded, raw: nat): (v: int)
    ensures raw < Pow2(b.bits) ==> InRange(b, v)
    ensures v == b.min <==> raw == 0
  {
    b.min + raw
  }

  lemma DecodeEncode(b: Bounded, v: int)
    requires InRange(b, v)
    ensures Decode(b, Encode(b, v)) == v
  {
  }

  lemma EncodeDecode(b: Bounded, raw: nat)
    requires raw < Pow2(b.bits)
    ensures Encode(b, Decode(b, raw)) == raw
  {
  }

  /** The encoding is monotone: it preserves the order of logical values. */
  lemma EncodeMonotone(b: Bounded, v: int, u: int)
    requires InRange(b, v) && InRange(b, u)
    ensures v <= u <==> Encode(b, v) <= Encode(b, u)
  {
  }
}

=== FILE: note_layer.dfy ===
/**
 The layers of a note sequence: the step parameters an editor page shows one
 at a time, in enum order, with `Last` as the end marker that names no layer.
 */
module NoteLayer {
  import opened Optional

  datatype Layer =
    | Gate
    | GateProbability
    | Retrigger
    | RetriggerProbability
    | Length
    | LengthVariationRange
    | LengthVariationProbability
    | Note
    | NoteVariationRange
    | NoteVariationProbability
    | Slide
    | Last

  /** The eleven data layers in enum order; `Last` is not among them. */
  const DataLayers: seq<Layer> := [
    Gate, GateProbability, Retrigger, RetriggerProbability, Length,
    LengthVariationRange, LengthVariationProbability, Note,
    NoteVariationRange, NoteVariationProbability, Slide
  ]

  /** The layer's position in the enum. */
  function Index(l: Layer): (i: nat)
    ensures i <= 11
    ensures i == 11 <==> l == Last
    ensures i < 11 ==> DataLayers[i] == l
  {
    match l
    case Gate => 0
    case GateProbability => 1
    case Retrigger => 2
    case RetriggerProbability => 3
    case Length => 4
    case LengthVariationRange => 5
    case LengthVariationProbability => 6
    case Note => 7
    case NoteVariationRange => 8
    case NoteVariationProbability => 9
    case Slide => 10
    case Last => 11
  }

  /** `layerName`: the display name of a data layer, and no name for `Last`. */
  function LayerName(l: Layer): (r: Option<string>)
    ensures r.None? <==> l == Last
    ensures r.Some? ==> |r.value| > 0
  {
    match l
    case Gate => Some("Gate")
    case GateProbability => Some("Gate Prob.")
    case Retrigger => Some("Retrigger")
    case RetriggerProbability => Some("Retrigger Prob.")
    case Length => Some("Length")
    case LengthVariationRange => Some("Length Var. Range")
    case LengthVariationProbability => Some("Length Var. Prob.")
    case Note => Some("Note")
    case NoteVariationRange => Some("Note Var. Range")
    case NoteVariationProbability => Some("Note Var. Prob.")
    case Slide => Some("Slide")
    case Last => None
  }

  /** The data layer a display name belongs to, if any. */
  function LayerNamed(name: string): (r: Option<Layer>)
    ensures r.Some? ==> r.value != Last && LayerName(r.value) == Some(name)
  {
    if name == "Gate" then Some(Gate)
    else if name == "Gate Prob." then Some(GateProbability)
    else if name == "Retrigger" then Some(Retrigger)
    else if name == "Retrigger Prob." then Some(RetriggerProbability)
    else if name == "Length" then Some(Length)
    else if name == "Length Var. Range" then Some(LengthVariationRange)
    else if name == "Length Var. Prob." then Some(LengthVariationProbability)
    else if name == "Note" then Some(Note)
    else if name == "Note Var. Range" then Some(NoteVariationRange)
    else if name == "Note Var. Prob." then Some(NoteVariationProbability)
    else if name == "Slide" then Some(Slide)
    else None
  }

  /** Every data layer's name leads back to that layer. */
  lemma LayerNamedOfLayerName(l: Layer)
    requires l != Last
    ensures LayerName(l).Some? && LayerNamed(LayerName(l).value) == Some(l)
  {
  }

  /** No two data layers share a name. */
  lemma LayerNamesDistinct(a: Layer, b: Layer)
    requires a != Last && b != Last
    ensures LayerName(a) == LayerName(b) <==> a == b
  {
    LayerNamedOfLayerName(a);
    LayerNamedOfLayerName(b);
  }

  /** `DataLayers` lists every layer except `Last`, each exactly once. */
  lemma DataLayersComplete(l: Layer)
    ensures l in DataLayers <==> l != Last
    ensures l != Last ==> forall i :: 0 <= i < |DataLayers| && DataLayers[i] == l ==> i == Index(l)
  {
  }
}

=== FILE: note_sequence.dfy ===
/**
 The sequence-level properties of a note sequence: scale, root note, clock
 divisor, reset measure, run mode and the first/last step of the playing
 range, plus the step array.

 Every property except the run mode has a clamping setter; the run-mode
 setter stores the mode as given, and a step write replaces the step. The
 scale, root-note and step edits add the encoder delta `value` to the current
 value; the divisor, reset-measure and run-mode edits go through the
 `ModelUtils` adjusters first. The build-time and
 project-wide constants (`Scale::Count`, `CONFIG_STEP_COUNT`, the static
 default scale and root note) are a `Config`, and the unseen `ModelUtils`
 helpers are uninterpreted functions gathered in `Utils`.
 */
module NoteSequenceModel {
  import NoteStep

  //----------------------------------------
  // Parameters
  //----------------------------------------

  datatype Config = Config(
    stepCount: nat,        // CONFIG_STEP_COUNT
    scaleCount: nat,       // Scale::Count
    defaultScale: nat,     // _defaultScale, a uint8_t
    defaultRootNote: nat)  // _defaultRootNote, a uint8_t

  /** There is at least one step and one scale, and the storage types hold every index. */
  predicate ValidConfig(c: Config) {
    && 1 <= c.stepCount <= 256
    && 1 <= c.scaleCount <= 128
    && c.defaultScale < 256
    && c.defaultRootNote < 256
  }

  /** `Types::RunMode`, whose enumerators are not part of this model: its underlying value. */
  type RunMode = int

  /** The `ModelUtils` helpers the setters call, left uninterpreted. */
  datatype Utils = Utils(
    indexToDivisor: int -> int,
    divisorToIndex: int -> int,
    adjustedByDivisor: (int, int, bool) -> int,
    adjustedByPowerOfTwo: (int, int, bool) -> int,
    adjustedEnum: (RunMode, int) -> RunMode)

  //----------------------------------------
  // Record and invariant
  //----------------------------------------

  datatype NoteSequence = NoteSequence(
    scale: int,          // -1 selects the project default
    rootNote: int,       // -1 selects the project default
    divisor: nat,
    resetMeasure: nat,   // 0 is off
    runMode: RunMode,
    firstStep: nat,
    lastStep: nat,
    steps: seq<NoteStep.Step>)

  /** The ranges the setters keep every property in. */
  predicate Valid(c: Config, s: NoteSequence) {
    && -1 <= s.scale <= c.scaleCount - 1
    && -1 <= s.rootNote <= 11
    && 1 <= s.divisor <= 192
    && s.resetMeasure <= 128
    && s.firstStep <= s.lastStep <= c.stepCount - 1
    && |s.steps| == c.stepCount
  }

  //----------------------------------------
  // Clamping
  //----------------------------------------

  function Dist(a: int, b: int): nat {
    if a <= b then b - a else a - b
  }

  /**
   `r` is the point of `[lo, hi]` nearest to `v`: the value itself when it is
   in range, otherwise the bound on its side.
   */
  predicate IsNearest(r: int, v: int, lo: int, hi: int) {
    lo <= r <= hi && forall u :: lo <= u <= hi ==> Dist(r, v) <= Dist(u, v)
  }

  /** An interval has at most one point nearest to a given value. */
  lemma {:induction false} NearestIsUnique(r1: int, r2: int, v: int, lo: int, hi: int)
    requires IsNearest(r1, v, lo, hi) && IsNearest(r2, v, lo, hi)
    ensures r1 == r2
  {
    assert Dist(r1, v) <= Dist(r2, v) && Dist(r2, v) <= Dist(r1, v);
    if lo <= v <= hi {
      assert Dist(r1, v) <= Dist(v, v);
      assert Dist(r2, v) <= Dist(v, v);
    }
  }

  /** `clamp(v, lo, hi)` */
  function Clamp(v: int, lo: int, hi: int): (r: int)
    requires lo <= hi
    ensures IsNearest(r, v, lo, hi)
  {
    if v < lo then lo else if v > hi then hi else v
  }

  /** A value already in range is its own nearest point. */
  lemma NearestOfInRange(r: int, v: int, lo: int, hi: int)
    requires lo <= v <= hi
    ensures IsNearest(r, v, lo, hi) <==> r == v
  {
    if IsNearest(r, v, lo, hi) {
      assert Dist(r, v) <= Dist(v, v);
    }
  }

  /** Below the range the nearest point is `lo`; above it, `hi`. */
  lemma NearestOfOutOfRange(r: int, v: int, lo: int, hi: int)
    requires lo <= hi
    requires v < lo || hi < v
    ensures IsNearest(r, v, lo, hi) <==> r == (if v < lo then lo else hi)
  {
    if IsNearest(r, v, lo, hi) {
      NearestIsUnique(r, Clamp(v, lo, hi), v, lo, hi);
    }
  }

  //----------------------------------------
  // scale
  //----------------------------------------

  /** `setScale`: clamps into `[-1, Scale::Count - 1]`; -1 means the project default. */
  function SetScale(c: Config, s: NoteSequence, scale: int): (r: NoteSequence)
    requires ValidConfig(c)
    ensures IsNearest(r.scale, scale, -1, c.scaleCount - 1)
    ensures r == s.(scale := r.scale)
  {
    s.(scale := Clamp(scale, -1, c.scaleCount - 1))
  }

  /** `editScale`: moves the scale by `value`; `shift` has no effect. */
  function EditScale(c: Config, s: NoteSequence, value: int, shift: bool): (r: NoteSequence)
    requires ValidConfig(c)
    ensures IsNearest(r.scale, s.scale + value, -1, c.scaleCount - 1)
    ensures r == s.(scale := r.scale)
  {
    SetScale(c, s, s.scale + value)
  }

  /**
   The index `selectedScale` looks up with `Scale::get`: the project default
   exactly when the scale is the -1 sentinel, otherwise the sequence's own.
   */
  function SelectedScaleIndex(c: Config, s: NoteSequence): (i: nat)
    ensures s.scale < 0 ==> i == c.defaultScale
    ensures s.scale >= 0 ==> i == s.scale
    ensures Valid(c, s) && c.defaultScale < c.scaleCount ==> i < c.scaleCount
  {
    if s.scale < 0 then c.defaultScale else s.scale
  }

  //----------------------------------------
  // rootNote
  //----------------------------------------

  /** `setRootNote`: clamps into `[-1, 11]`; -1 means the project default. */
  function SetRootNote(s: NoteSequence, rootNote: int): (r: NoteSequence)
    ensures IsNearest(r.rootNote, rootNote, -1, 11)
    ensures r == s.(rootNote := r.rootNote)
  {
    s.(rootNote := Clamp(rootNote, -1, 11))
  }

  function EditRootNote(s: NoteSequence, value: int, shift: bool): (r: NoteSequence)
    ensures IsNearest(r.rootNote, s.rootNote + value, -1, 11)
    ensures r == s.(rootNote := r.rootNote)
  {
    SetRootNote(s, s.rootNote + value)
  }

  /**
   `selectedRootNote`: the project default exactly when the root note is the
   -1 sentinel, otherwise the sequence's own; never the sentinel itself.
   */
  function SelectedRootNote(c: Config, s: NoteSequence): (n: nat)
    ensures s.rootNote < 0 ==> n == c.defaultRootNote
    ensures s.rootNote >= 0 ==> n == s.rootNote
    ensures Valid(c, s) && c.defaultRootNote <= 11 ==> n <= 11
  {
    if s.rootNote < 0 then c.defaultRootNote else s.rootNote
  }

  //----------------------------------------
  // divisor
  //----------------------------------------

  /** `setDivisor`: clamps into `[1, 192]`. */
  function SetDivisor(s: NoteSequence, divisor: int): (r: NoteSequence)
    ensures IsNearest(r.divisor, divisor, 1, 192)
    ensures r == s.(divisor := r.divisor)
  {
    s.(divisor := Clamp(divisor, 1, 192))
  }

  /** `indexedDivisor`: the divisor's position in the divisor table. */
  function IndexedDivisor(u: Utils, s: NoteSequence): int {
    u.divisorToIndex(s.divisor)
  }

  /**
   `setIndexedDivisor`: sets the divisor the table gives for `index`, and
   leaves the sequence unchanged when the table gives no positive divisor.
   */
  function SetIndexedDivisor(u: Utils, s: NoteSequence, index: int): (r: NoteSequence)
    ensures u.indexToDivisor(index) <= 0 ==> r == s
    ensures u.indexToDivisor(index) > 0 ==>
      IsNearest(r.divisor, u.indexToDivisor(index), 1, 192) && r == s.(divisor := r.divisor)
  {
    var divisor := u.indexToDivisor(index);
    if divisor > 0 then SetDivisor(s, divisor) else s
  }

  /** `editDivisor`: steps through the divisor table, then clamps. */
  function EditDivisor(u: Utils, s: NoteSequence, value: int, shift: bool): (r: NoteSequence)
    ensures IsNearest(r.divisor, u.adjustedByDivisor(s.divisor, value, shift), 1, 192)
    ensures r == s.(divisor := r.divisor)
  {
    SetDivisor(s, u.adjustedByDivisor(s.divisor, value, shift))
  }

  //----------------------------------------
  // resetMeasure
  //----------------------------------------

  /** `setResetMeasure`: clamps into `[0, 128]`; 0 switches the reset off. */
  function SetResetMeasure(s: NoteSequence, resetMeasure: int): (r: NoteSequence)
    ensures IsNearest(r.resetMeasure, resetMeasure, 0, 128)
    ensures r == s.(resetMeasure := r.resetMeasure)
  {
    s.(resetMeasure := Clamp(resetMeasure, 0, 128))
  }

  /** `editResetMeasure`: moves by powers of two, then clamps. */
  function EditResetMeasure(u: Utils, s: NoteSequence, value: int, shift: bool): (r: NoteSequence)
    ensures IsNearest(r.resetMeasure, u.adjustedByPowerOfTwo(s.resetMeasure, value, shift), 0, 128)
    ensures r == s.(resetMeasure := r.resetMeasure)
  {
    SetResetMeasure(s, u.adjustedByPowerOfTwo(s.resetMeasure, value, shift))
  }

  //----------------------------------------
  // runMode
  //----------------------------------------

  /** `setRunMode`: stores the mode as given, without clamping. */
  function SetRunMode(s: NoteSequence, runMode: RunMode): (r: NoteSequence)
    ensures r.runMode == runMode
    ensures r == s.(runMode := r.runMode)
  {
    s.(runMode := runMode)
  }

  function EditRunMode(u: Utils, s: NoteSequence, value: int, shift: bool): (r: NoteSequence)
    ensures r.runMode == u.adjustedEnum(s.runMode, value)
    ensures r == s.(runMode := r.runMode)
  {
    SetRunMode(s, u.adjustedEnum(s.runMode, value))
  }

  //----------------------------------------
  // firstStep / lastStep
  //----------------------------------------

  /** `setFirstStep`: clamps into `[0, lastStep]`, so it never passes the last step. */
  function SetFirstStep(s: NoteSequence, firstStep: int): (r: NoteSequence)
    ensures IsNearest(r.firstStep, firstStep, 0, s.lastStep)
    ensures r == s.(firstStep := r.firstStep)
  {
    s.(firstStep := Clamp(firstStep, 0, s.lastStep))
  }

  function EditFirstStep(s: NoteSequence, value: int, shift: bool): (r: NoteSequence)
    ensures IsNearest(r.firstStep, s.firstStep + value, 0, s.lastStep)
    ensures r == s.(firstStep := r.firstStep)
  {
    SetFirstStep(s, s.firstStep + value)
  }

  /**
   `setLastStep`: clamps into `[firstStep, CONFIG_STEP_COUNT - 1]`, so it never
   falls below the first step. The range is non-empty while the first step
   lies inside the step array.
   */
  function SetLastStep(c: Config, s: NoteSequence, lastStep: int): (r: NoteSequence)
    requires s.firstStep <= c.stepCount - 1
    ensures IsNearest(r.lastStep, lastStep, s.firstStep, c.stepCount - 1)
    ensures r == s.(lastStep := r.lastStep)
  {
    s.(lastStep := Clamp(lastStep, s.firstStep, c.stepCount - 1))
  }

  function EditLastStep(c: Config, s: NoteSequence, value: int, shift: bool): (r: NoteSequence)
    requires s.firstStep <= c.stepCount - 1
    ensures IsNearest(r.lastStep, s.lastStep + value, s.firstStep, c.stepCount - 1)
    ensures r == s.(lastStep := r.lastStep)
  {
    SetLastStep(c, s, s.lastStep + value)
  }

  //----------------------------------------
  // steps
  //----------------------------------------

  /** Replaces step `index`, as a write through the `step(index)` reference does. */
  function SetStep(s: NoteSequence, index: nat, step: NoteStep.Step): (r: NoteSequence)
    requires index < |s.steps|
    ensures |r.steps| == |s.steps| && r.steps[index] == step
    ensures forall i :: 0 <= i < |s.steps| && i != index ==> r.steps[i] == s.steps[i]
    ensures r == s.(steps := r.steps)
  {
    s.(steps := s.steps[index := step])
  }

  //----------------------------------------
  // Sequences of edits
  //----------------------------------------

  /** One call of a property setter or editor. */
  datatype Edit =
    | SetScaleTo(scale: int)
    | EditScaleBy(value: int, shift: bool)
    | SetRootNoteTo(rootNote: int)
    | EditRootNoteBy(value: int, shift: bool)
    | SetDivisorTo(divisor: int)
    | SetIndexedDivisorTo(index: int)
    | EditDivisorBy(value: int, shift: bool)
    | SetResetMeasureTo(resetMeasure: int)
    | EditResetMeasureBy(value: int, shift: bool)
    | SetRunModeTo(runMode: RunMode)
    | EditRunModeBy(value: int, shift: bool)
    | SetFirstStepTo(firstStep: int)
    | EditFirstStepBy(value: int, shift: bool)
    | SetLastStepTo(lastStep: int)
    | EditLastStepBy(value: int, shift: bool)
    | SetStepAt(position: nat, step: NoteStep.Step)

  /** An edit is callable when the step it names exists. */
  predicate Applicable(s: NoteSequence, e: Edit) {
    e.SetStepAt? ==> e.position < |s.steps|
  }

  /** Every setter and editor keeps the sequence inside its ranges. */
  function Apply(c: Config, u: Utils, s: NoteSequence, e: Edit): (r: NoteSequence)
    requires ValidConfig(c) && Valid(c, s) && Applicable(s, e)
    ensures Valid(c, r)
    ensures !e.SetStepAt? ==> r.steps == s.steps
  {
    match e
    case SetScaleTo(v) => SetScale(c, s, v)
    case EditScaleBy(v, shift) => EditScale(c, s, v, shift)
    case SetRootNoteTo(v) => SetRootNote(s, v)
    case EditRootNoteBy(v, shift) => EditRootNote(s, v, shift)
    case SetDivisorTo(v) => SetDivisor(s, v)
    case SetIndexedDivisorTo(i) => SetIndexedDivisor(u, s, i)
    case EditDivisorBy(v, shift) => EditDivisor(u, s, v, shift)
    case SetResetMeasureTo(v) => SetResetMeasure(s, v)
    case EditResetMeasureBy(v, shift) => EditResetMeasure(u, s, v, shift)
    case SetRunModeTo(m) => SetRunMode(s, m)
    case EditRunModeBy(v, shift) => EditRunMode(u, s, v, shift)
    case SetFirstStepTo(v) => SetFirstStep(s, v)
    case EditFirstStepBy(v, shift) => EditFirstStep(s, v, shift)
    case SetLastStepTo(v) => SetLastStep(c, s, v)
    case EditLastStepBy(v, shift) => EditLastStep(c, s, v, shift)
    case SetStepAt(i, step) => SetStep(s, i, step)
  }

  /** Every step index an edit list names lies inside the step array. */
  predicate AllApplicable(c: Config, es: seq<Edit>) {
    forall i :: 0 <= i < |es| ==> es[i].SetStepAt? ==> es[i].position < c.stepCount
  }

  /**
   Any sequence of setter and editor calls, applied in order, keeps
   `0 <= firstStep <= lastStep <= CONFIG_STEP_COUNT - 1` and every other range,
   and touches no step unless it writes one.
   */
  function ApplyAll(c: Config, u: Utils, s: NoteSequence, es: seq<Edit>): (r: NoteSequence)
    requires ValidConfig(c) && Valid(c, s) && AllApplicable(c, es)
    ensures Valid(c, r)
    ensures (forall i :: 0 <= i < |es| ==> !es[i].SetStepAt?) ==> r.steps == s.steps
    decreases |es|
  {
    if es == [] then s
    else ApplyAll(c, u, Apply(c, u, s, es[0]), es[1..])
  }

  /** Applying two edit lists one after the other is applying their concatenation. */
  lemma {:induction false} ApplyAllAppend(c: Config, u: Utils, s: NoteSequence, es: seq<Edit>, fs: seq<Edit>)
    requires ValidConfig(c) && Valid(c, s) && AllApplicable(c, es) && AllApplicable(c, fs)
    ensures AllApplicable(c, es + fs)
    ensures ApplyAll(c, u, s, es + fs) == ApplyAll(c, u, ApplyAll(c, u, s, es), fs)
    decreases |es|
  {
    if es == [] {
      assert es + fs == fs;
    } else {
      assert (es + fs)[1..] == es[1..] + fs;
      ApplyAllAppend(c, u, Apply(c, u, s, es[0]), es[1..], fs);
    }
  }
}

=== FILE: note_step.dfy ===
/**
 One step of a note sequence: eleven parameters packed into two raw words.

 Word 0 (32 bits) holds gate, slide, gate probability, length, length
 variation range and probability, note, note variation range and note
 variation probability; word 1 (16 bits) holds retrigger and retrigger
 probability, with its upper ten bits unused. Signed parameters are stored
 offset by their minimum; unsigned and boolean ones are stored as they are.
 */
module NoteStep {
  import opened BitField
  import opened BoundedValue

  // The value types of the step parameters.
  const GateProbabilityValue: Bounded := Unsigned(3)
  const RetriggerValue: Bounded := Unsigned(3)
  const RetriggerProbabilityValue: Bounded := Unsigned(3)
  const LengthValue: Bounded := Unsigned(3)
  const LengthVariationRangeValue: Bounded := Signed(4)
  const LengthVariationProbabilityValue: Bounded := Unsigned(3)
  const NoteValue: Bounded := Signed(7)
  const NoteVariationRangeValue: Bounded := Signed(7)
  const NoteVariationProbabilityValue: Bounded := Unsigned(3)

  datatype Step = Step(data0: bv32, data1: bv16)

  //----------------------------------------
  // Bit layout
  //----------------------------------------

  /** The fields of word 0, in bit order. */
  datatype Field0 =
    | GateField
    | SlideField
    | GateProbabilityField
    | LengthField
    | LengthVariationRangeField
    | LengthVariationProbabilityField
    | NoteField
    | NoteVariationRangeField
    | NoteVariationProbabilityField

  /** The fields of word 1; bits 6 to 15 are unused. */
  datatype Field1 = RetriggerField | RetriggerProbabilityField

  function Offset0(f: Field0): nat {
    match f
    case GateField => 0
    case SlideField => 1
    case GateProbabilityField => 2
    case LengthField => 5
    case LengthVariationRangeField => 8
    case LengthVariationProbabilityField => 12
    case NoteField => 15
    case NoteVariationRangeField => 22
    case NoteVariationProbabilityField => 29
  }

  function Width0(f: Field0): nat {
    match f
    case GateField => 1
    case SlideField => 1
    case GateProbabilityField => GateProbabilityValue.bits
    case LengthField => LengthValue.bits
    case LengthVariationRangeField => LengthVariationRangeValue.bits
    case LengthVariationProbabilityField => LengthVariationProbabilityValue.bits
    case NoteField => NoteValue.bits
    case NoteVariationRangeField => NoteVariationRangeValue.bits
    case NoteVariationProbabilityField => NoteVariationProbabilityValue.bits
  }

  function Offset1(f: Field1): nat {
    match f
    case RetriggerField => 0
    case RetriggerProbabilityField => 3
  }

  function Width1(f: Field1): nat {
    match f
    case RetriggerField => RetriggerValue.bits
    case RetriggerProbabilityField => RetriggerProbabilityValue.bits
  }

  /** The value type stored in each field; the two flags are one-bit unsigned values. */
  function Value0(f: Field0): Bounded {
    match f
    case GateField => Unsigned(1)
    case SlideField => Unsigned(1)
    case GateProbabilityField => GateProbabilityValue
    case LengthField => LengthValue
    case LengthVariationRangeField => LengthVariationRangeValue
    case LengthVariationProbabilityField => LengthVariationProbabilityValue
    case NoteField => NoteValue
    case NoteVariationRangeField => NoteVariationRangeValue
    case NoteVariationProbabilityField => NoteVariationProbabilityValue
  }

  function Value1(f: Field1): Bounded {
    match f
    case RetriggerField => RetriggerValue
    case RetriggerProbabilityField => RetriggerProbabilityValue
  }

  // The logical range of each field, written out.

  function Min0(f: Field0): int {
    match f
    case LengthVariationRangeField => -8
    case NoteField => -64
    case NoteVariationRangeField => -64
    case _ => 0
  }

  function Max0(f: Field0): int {
    match f
    case GateField => 1
    case SlideField => 1
    case LengthVariationRangeField => 7
    case NoteField => 63
    case NoteVariationRangeField => 63
    case _ => 7
  }

  function Max1(f: Field1): int {
    7
  }

  predicate InRange0(f: Field0, v: int) {
    Min0(f) <= v <= Max0(f)
  }

  predicate InRange1(f: Field1, v: int) {
    0 <= v <= Max1(f)
  }

  /**
   The written-out ranges are those of the value types: each field is as wide
   as its type's bit count and holds exactly the type's range.
   */
  lemma RangesMatchValueTypes()
    ensures forall f: Field0 :: Value0(f).bits == Width0(f)
    ensures forall f: Field1 :: Value1(f).bits == Width1(f)
    ensures forall f: Field0 :: Value0(f).min == Min0(f) && Max(Value0(f)) == Max0(f)
    ensures forall f: Field1 :: Value1(f).min == 0 && Max(Value1(f)) == Max1(f)
  {
    assert Pow2(1) == 2 && Pow2(3) == 8 && Pow2(4) == 16 && Pow2(7) == 128;
  }

  predicate Disjoint(o1: nat, n1: nat, o2: nat, n2: nat) {
    o1 + n1 <= o2 || o2 + n2 <= o1
  }

  /**
   The layout is sound: the fields of a word lie inside the word and no two
   fields of a word share a bit. The widths of word 0 add up to 32, so word 0
   has no spare bit; word 1 uses 6 of its 16 bits.
   */
  lemma LayoutIsSound()
    ensures forall f: Field0 :: Offset0(f) + Width0(f) <= 32
    ensures forall f: Field1 :: Offset1(f) + Width1(f) <= 16
    ensures forall f: Field0, g: Field0 :: f != g ==>
              Disjoint(Offset0(f), Width0(f), Offset0(g), Width0(g))
    ensures forall f: Field1, g: Field1 :: f != g ==>
              Disjoint(Offset1(f), Width1(f), Offset1(g), Width1(g))
    ensures Width0(GateField) + Width0(SlideField) + Width0(GateProbabilityField)
            + Width0(LengthField) + Width0(LengthVariationRangeField)
            + Width0(LengthVariationProbabilityField) + Width0(NoteField)
            + Width0(NoteVariationRangeField) + Width0(NoteVariationProbabilityField) == 32
    ensures Width1(RetriggerField) + Width1(RetriggerProbabilityField) == 6
  {
  }

  //----------------------------------------
  // Field access
  //----------------------------------------

  // Every field is at most 7 bits wide, so a field's raw value is carried as
  // a byte. The accessors spell out each field's offset and width as
  // constants; the `AccessOf...` lemmas of word 0 and `AccessFollowsLayout1`
  // tie them to the layout table above, one field at a time.

  /** The largest raw value of a field of word 0: its low `Width0` bits set. */
  function Limit0(f: Field0): bv8 {
    match f
    case GateField => 1
    case SlideField => 1
    case GateProbabilityField => 7
    case LengthField => 7
    case LengthVariationRangeField => 15
    case LengthVariationProbabilityField => 7
    case NoteField => 127
    case NoteVariationRangeField => 127
    case NoteVariationProbabilityField => 7
  }

  function Limit1(f: Field1): bv8 {
    match f
    case RetriggerField => 7
    case RetriggerProbabilityField => 7
  }

  function Get0(w: bv32, f: Field0): (r: bv8)
    ensures r <= Limit0(f)
  {
    match f
    case GateField => Get32(w, 0, 1) as bv8
    case SlideField => Get32(w, 1, 1) as bv8
    case GateProbabilityField => Get32(w, 2, 3) as bv8
    case LengthField => Get32(w, 5, 3) as bv8
    case LengthVariationRangeField => Get32(w, 8, 4) as bv8
    case LengthVariationProbabilityField => Get32(w, 12, 3) as bv8
    case NoteField => Get32(w, 15, 7) as bv8
    case NoteVariationRangeField => Get32(w, 22, 7) as bv8
    case NoteVariationProbabilityField => Get32(w, 29, 3) as bv8
  }

  function Set0(w: bv32, f: Field0, v: bv8): (r: bv32)
    requires v <= Limit0(f)
    ensures Get0(r, f) == v
  {
    match f
    case GateField => Set32(w, 0, 1, v as bv32)
    case SlideField => Set32(w, 1, 1, v as bv32)
    case GateProbabilityField => Set32(w, 2, 3, v as bv32)
    case LengthField => Set32(w, 5, 3, v as bv32)
    case LengthVariationRangeField => Set32(w, 8, 4, v as bv32)
    case LengthVariationProbabilityField => Set32(w, 12, 3, v as bv32)
    case NoteField => Set32(w, 15, 7, v as bv32)
    case NoteVariationRangeField => Set32(w, 22, 7, v as bv32)
    case NoteVariationProbabilityField => Set32(w, 29, 3, v as bv32)
  }

  function Get1(w: bv16, f: Field1): (r: bv8)
    ensures r <= Limit1(f)
  {
    match f
    case RetriggerField => Get16(w, 0, 3) as bv8
    case RetriggerProbabilityField => Get16(w, 3, 3) as bv8
  }

  function Set1(w: bv16, f: Field1, v: bv8): (r: bv16)
    requires v <= Limit1(f)
    ensures Get1(r, f) == v
  {
    match f
    case RetriggerField => Set16(w, 0, 3, v as bv16)
    case RetriggerProbabilityField => Set16(w, 3, 3, v as bv16)
  }

  /**
   Each word-0 accessor reads exactly the bits the layout table assigns: the
   field's `Width0` bits from bit `Offset0`, and its largest raw value has all
   of them set. One lemma per field keeps each bit-vector proof small.
   */
  lemma AccessOfGate(w: bv32)
    ensures Get0(w, GateField) as bv32 == Get32(w, Offset0(GateField) as bv32, Width0(GateField) as bv32)
    ensures Limit0(GateField) as bv32 == Mask32(Width0(GateField) as bv32)
  {
    assert Offset0(GateField) as bv32 == 0 && Width0(GateField) as bv32 == 1;
  }

  lemma AccessOfSlide(w: bv32)
    ensures Get0(w, SlideField) as bv32 == Get32(w, Offset0(SlideField) as bv32, Width0(SlideField) as bv32)
    ensures Limit0(SlideField) as bv32 == Mask32(Width0(SlideField) as bv32)
  {
    assert Offset0(SlideField) as bv32 == 1 && Width0(SlideField) as bv32 == 1;
  }

  lemma AccessOfGateProbability(w: bv32)
    ensures Get0(w, GateProbabilityField) as bv32 == Get32(w, Offset0(GateProbabilityField) as bv32, Width0(GateProbabilityField) as bv32)
    ensures Limit0(GateProbabilityField) as bv32 == Mask32(Width0(GateProbabilityField) as bv32)
  {
    assert Offset0(GateProbabilityField) as bv32 == 2 && Width0(GateProbabilityField) as bv32 == 3;
  }

  lemma AccessOfLength(w: bv32)
    ensures Get0(w, LengthField) as bv32 == Get32(w, Offset0(LengthField) as bv32, Width0(LengthField) as bv32)
    ensures Limit0(LengthField) as bv32 == Mask32(Width0(LengthField) as bv32)
  {
    assert Offset0(LengthField) as bv32 == 5 && Width0(LengthField) as bv32 == 3;
  }

  lemma AccessOfLengthVariationRange(w: bv32)
    ensures Get0(w, LengthVariationRangeField) as bv32 == Get32(w, Offset0(LengthVariationRangeField) as bv32, Width0(LengthVariationRangeField) as bv32)
    ensures Limit0(LengthVariationRangeField) as bv32 == Mask32(Width0(LengthVariationRangeField) as bv32)
  {
    assert Offset0(LengthVariationRangeField) as bv32 == 8 && Width0(LengthVariationRangeField) as bv32 == 4;
  }

  lemma AccessOfLengthVariationProbability(w: bv32)
    ensures Get0(w, LengthVariationProbabilityField) as bv32 == Get32(w, Offset0(LengthVariationProbabilityField) as bv32, Width0(LengthVariationProbabilityField) as bv32)
    ensures Limit0(LengthVariationProbabilityField) as bv32 == Mask32(Width0(LengthVariationProbabilityField) as bv32)
  {
    assert Offset0(LengthVariationProbabilityField) as bv32 == 12 && Width0(LengthVariationProbabilityField) as bv32 == 3;
  }

  lemma AccessOfNote(w: bv32)
    ensures Get0(w, NoteField) as bv32 == Get32(w, Offset0(NoteField) as bv32, Width0(NoteField) as bv32)
    ensures Limit0(NoteField) as bv32 == Mask32(Width0(NoteField) as bv32)
  {
    assert Offset0(NoteField) as bv32 == 15 && Width0(NoteField) as bv32 == 7;
  }

  lemma AccessOfNoteVariationRange(w: bv32)
    ensures Get0(w, NoteVariationRangeField) as bv32 == Get32(w, Offset0(NoteVariationRangeField) as bv32, Width0(NoteVariationRangeField) as bv32)
    ensures Limit0(NoteVariationRangeField) as bv32 == Mask32(Width0(NoteVariationRangeField) as bv32)
  {
    assert Offset0(NoteVariationRangeField) as bv32 == 22 && Width0(NoteVariationRangeField) as bv32 == 7;
  }

  lemma AccessOfNoteVariationProbability(w: bv32)
    ensures Get0(w, NoteVariationProbabilityField) as bv32 == Get32(w, Offset0(NoteVariationProbabilityField) as bv32, Width0(NoteVariationProbabilityField) as bv32)
    ensures Limit0(NoteVariationProbabilityField) as bv32 == Mask32(Width0(NoteVariationProbabilityField) as bv32)
  {
    assert Offset0(NoteVariationProbabilityField) as bv32 == 29 && Width0(NoteVariationProbabilityField) as bv32 == 3;
  }

  lemma AccessFollowsLayout1(w: bv16, f: Field1)
    ensures Get1(w, f) as bv16 == Get16(w, Offset1(f) as bv16, Width1(f) as bv16)
    ensures Limit1(f) as bv16 == Mask16(Width1(f) as bv16)
  {
    match f
    case RetriggerField =>
      assert Offset1(f) as bv16 == 0 && Width1(f) as bv16 == 3;
    case RetriggerProbabilityField =>
      assert Offset1(f) as bv16 == 3 && Width1(f) as bv16 == 3;
  }

  /** Writing one field of word 0 leaves any other field of word 0 as it was. */
  lemma Frame0(w: bv32, f: Field0, v: bv8, g: Field0)
    requires v <= Limit0(f)
    requires g != f
    ensures Get0(Set0(w, f, v), g) == Get0(w, g)
  {
    match f
    case GateField => FrameOfGate(w, v, g);
    case SlideField => FrameOfSlide(w, v, g);
    case GateProbabilityField => FrameOfGateProbability(w, v, g);
    case LengthField => FrameOfLength(w, v, g);
    case LengthVariationRangeField => FrameOfLengthVariationRange(w, v, g);
    case LengthVariationProbabilityField => FrameOfLengthVariationProbability(w, v, g);
    case NoteField => FrameOfNote(w, v, g);
    case NoteVariationRangeField => FrameOfNoteVariationRange(w, v, g);
    case NoteVariationProbabilityField => FrameOfNoteVariationProbability(w, v, g);
  }

  lemma FrameOfGate(w: bv32, v: bv8, g: Field0)
    requires v <= Limit0(GateField) && g != GateField
    ensures Get0(Set0(w, GateField, v), g) == Get0(w, g)
  {
  }

  lemma FrameOfSlide(w: bv32, v: bv8, g: Field0)
    requires v <= Limit0(SlideField) && g != SlideField
    ensures Get0(Set0(w, SlideField, v), g) == Get0(w, g)
  {
  }

  lemma FrameOfGateProbability(w: bv32, v: bv8, g: Field0)
    requires v <= Limit0(GateProbabilityField) && g != GateProbabilityField
    ensures Get0(Set0(w, GateProbabilityField, v), g) == Get0(w, g)
  {
  }

  lemma FrameOfLength(w: bv32, v: bv8, g: Field0)
    requires v <= Limit0(LengthField) && g != LengthField
    ensures Get0(Set0(w, LengthField, v), g) == Get0(w, g)
  {
  }

  lemma FrameOfLengthVariationRange(w: bv32, v: bv8, g: Field0)
    requires v <= Limit0(LengthVariationRangeField) && g != LengthVariationRangeField
    ensures Get0(Set0(w, LengthVariationRangeField, v), g) == Get0(w, g)
  {
  }

  lemma FrameOfLengthVariationProbability(w: bv32, v: bv8, g: Field0)
    requires v <= Limit0(LengthVariationProbabilityField) && g != LengthVariationProbabilityField
    ensures Get0(Set0(w, LengthVariationProbabilityField, v), g) == Get0(w, g)
  {
  }

  lemma FrameOfNote(w: bv32, v: bv8, g: Field0)
    requires v <= Limit0(NoteField) && g != NoteField
    ensures Get0(Set0(w, NoteField, v), g) == Get0(w, g)
  {
  }

  lemma FrameOfNoteVariationRange(w: bv32, v: bv8, g: Field0)
    requires v <= Limit0(NoteVariationRangeField) && g != NoteVariationRangeField
    ensures Get0(Set0(w, NoteVariationRangeField, v), g) == Get0(w, g)
  {
  }

  lemma FrameOfNoteVariationProbability(w: bv32, v: bv8, g: Field0)
    requires v <= Limit0(NoteVariationProbabilityField) && g != NoteVariationProbabilityField
    ensures Get0(Set0(w, NoteVariationProbabilityField, v), g) == Get0(w, g)
  {
  }

  lemma Frame0All(w: bv32, f: Field0, v: bv8)
    requires v <= Limit0(f)
    ensures forall g :: g != f ==> Get0(Set0(w, f, v), g) == Get0(w, g)
  {
    forall g | g != f
      ensures Get0(Set0(w, f, v), g) == Get0(w, g)
    {
      Frame0(w, f, v, g);
    }
  }

  /**
   Writing one field of word 1 leaves the other field and the ten unused
   bits as they were.
   */
  lemma Frame1(w: bv16, f: Field1, v: bv8)
    requires v <= Limit1(f)
    ensures forall g :: g != f ==> Get1(Set1(w, f, v), g) == Get1(w, g)
    ensures Set1(w, f, v) >> 6 == w >> 6
  {
    match f
    case RetriggerField =>
      assert Get1(Set1(w, f, v), RetriggerProbabilityField) == Get1(w, RetriggerProbabilityField);
    case RetriggerProbabilityField =>
      assert Get1(Set1(w, f, v), RetriggerField) == Get1(w, RetriggerField);
  }

  /** The number the largest raw value denotes is the width of the field's range. */
  lemma LimitValue0(f: Field0)
    ensures ByteToNat(Limit0(f)) == Max0(f) - Min0(f)
  {
    match f
    case GateField => {}
    case SlideField => {}
    case GateProbabilityField => {}
    case LengthField => {}
    case LengthVariationRangeField => {}
    case LengthVariationProbabilityField => {}
    case NoteField => {}
    case NoteVariationRangeField => {}
    case NoteVariationProbabilityField => {}
  }

  lemma LimitValue1(f: Field1)
    ensures ByteToNat(Limit1(f)) == Max1(f)
  {
    match f
    case RetriggerField => {}
    case RetriggerProbabilityField => {}
  }

  //----------------------------------------
  // Raw field contents
  //----------------------------------------

  /** The raw bits of all eleven fields of a step, each as a byte. */
  datatype RawFields = RawFields(
    gate: bv8,
    slide: bv8,
    gateProbability: bv8,
    length: bv8,
    lengthVariationRange: bv8,
    lengthVariationProbability: bv8,
    note: bv8,
    noteVariationRange: bv8,
    noteVariationProbability: bv8,
    retrigger: bv8,
    retriggerProbability: bv8)

  function Fields(s: Step): RawFields {
    RawFields(
      Get0(s.data0, GateField),
      Get0(s.data0, SlideField),
      Get0(s.data0, GateProbabilityField),
      Get0(s.data0, LengthField),
      Get0(s.data0, LengthVariationRangeField),
      Get0(s.data0, LengthVariationProbabilityField),
      Get0(s.data0, NoteField),
      Get0(s.data0, NoteVariationRangeField),
      Get0(s.data0, NoteVariationProbabilityField),
      Get1(s.data1, RetriggerField),
      Get1(s.data1, RetriggerProbabilityField))
  }

  /** `x` with the raw content of field `f` of word 0 replaced by `y`. */
  function WithField0(x: RawFields, f: Field0, y: bv8): RawFields {
    match f
    case GateField => x.(gate := y)
    case SlideField => x.(slide := y)
    case GateProbabilityField => x.(gateProbability := y)
    case LengthField => x.(length := y)
    case LengthVariationRangeField => x.(lengthVariationRange := y)
    case LengthVariationProbabilityField => x.(lengthVariationProbability := y)
    case NoteField => x.(note := y)
    case NoteVariationRangeField => x.(noteVariationRange := y)
    case NoteVariationProbabilityField => x.(noteVariationProbability := y)
  }

  function WithField1(x: RawFields, f: Field1, y: bv8): RawFields {
    match f
    case RetriggerField => x.(retrigger := y)
    case RetriggerProbabilityField => x.(retriggerProbability := y)
  }

  /** Storing a field of word 0 changes that field's raw content and no other. */
  lemma FieldsAfterSet0(s: Step, f: Field0, y: bv8)
    requires y <= Limit0(f)
    ensures Fields(s.(data0 := Set0(s.data0, f, y))) == WithField0(Fields(s), f, y)
  {
    Frame0All(s.data0, f, y);
    FieldsFromFrame0(s, s.(data0 := Set0(s.data0, f, y)), f, y);
  }

  /** Two steps that differ only in field `f` of word 0 have these raw contents. */
  lemma FieldsFromFrame0(s: Step, r: Step, f: Field0, y: bv8)
    requires r.data1 == s.data1
    requires Get0(r.data0, f) == y
    requires forall g :: g != f ==> Get0(r.data0, g) == Get0(s.data0, g)
    ensures Fields(r) == WithField0(Fields(s), f, y)
  {
    match f
    case GateField =>
    case SlideField =>
    case GateProbabilityField =>
    case LengthField =>
    case LengthVariationRangeField =>
    case LengthVariationProbabilityField =>
    case NoteField =>
    case NoteVariationRangeField =>
    case NoteVariationProbabilityField =>
  }

  lemma FieldsAfterSet1(s: Step, f: Field1, y: bv8)
    requires y <= Limit1(f)
    ensures Fields(s.(data1 := Set1(s.data1, f, y))) == WithField1(Fields(s), f, y)
  {
    Frame1(s.data1, f, y);
  }

  //----------------------------------------
  // Logical view of a step
  //----------------------------------------

  /** All eleven parameters of a step, as the typed getters return them. */
  datatype StepValues = StepValues(
    gate: bool,
    slide: bool,
    gateProbability: int,
    length: int,
    lengthVariationRange: int,
    lengthVariationProbability: int,
    note: int,
    noteVariationRange: int,
    noteVariationProbability: int,
    retrigger: int,
    retriggerProbability: int)

  /** Every numeric parameter lies in its value type's range. */
  predicate ValidValues(v: StepValues) {
    && InRange0(GateProbabilityField, v.gateProbability)
    && InRange0(LengthField, v.length)
    && InRange0(LengthVariationRangeField, v.lengthVariationRange)
    && InRange0(LengthVariationProbabilityField, v.lengthVariationProbability)
    && InRange0(NoteField, v.note)
    && InRange0(NoteVariationRangeField, v.noteVariationRange)
    && InRange0(NoteVariationProbabilityField, v.noteVariationProbability)
    && InRange1(RetriggerField, v.retrigger)
    && InRange1(RetriggerProbabilityField, v.retriggerProbability)
  }

  /** The logical value of raw field content: the getter adds the minimum back. */
  function DecodeField0(f: Field0, x: bv8): (v: int)
    ensures x <= Limit0(f) ==> InRange0(f, v)
  {
    LimitValue0(f);
    ByteToNatStrictlyMonotone(Limit0(f), x);
    Min0(f) + ByteToNat(x)
  }

  function DecodeField1(f: Field1, x: bv8): (v: int)
    ensures x <= Limit1(f) ==> InRange1(f, v)
  {
    LimitValue1(f);
    ByteToNatStrictlyMonotone(Limit1(f), x);
    ByteToNat(x)
  }

  /** The raw content a setter stores for `v`. */
  function EncodeField0(f: Field0, v: int): (x: bv8)
    requires InRange0(f, v)
    ensures x <= Limit0(f)
    ensures ByteToNat(x) == v - Min0(f)
    ensures DecodeField0(f, x) == v
  {
    var x := NatToByte(v - Min0(f));
    LimitValue0(f);
    ByteToNatStrictlyMonotone(Limit0(f), x);
    x
  }

  function EncodeField1(f: Field1, v: int): (x: bv8)
    requires InRange1(f, v)
    ensures x <= Limit1(f)
    ensures ByteToNat(x) == v
    ensures DecodeField1(f, x) == v
  {
    var x := NatToByte(v);
    LimitValue1(f);
    ByteToNatStrictlyMonotone(Limit1(f), x);
    x
  }

  /**
   * The field codec is the bounded-value codec of the field's value type:
   * a stored field decodes as `Decode`, and a setter stores `Encode`.
   */
  lemma DecodeFieldIsDecode0(f: Field0, x: bv8)
    ensures DecodeField0(f, x) == Decode(Value0(f), ByteToNat(x))
  {
    RangesMatchValueTypes();
  }

  lemma EncodeFieldIsEncode0(f: Field0, v: int)
    ensures InRange0(f, v) <==> InRange(Value0(f), v)
    ensures InRange0(f, v) ==> ByteToNat(EncodeField0(f, v)) == Encode(Value0(f), v)
  {
    RangesMatchValueTypes();
  }

  lemma DecodeFieldIsDecode1(f: Field1, x: bv8)
    ensures DecodeField1(f, x) == Decode(Value1(f), ByteToNat(x))
  {
    RangesMatchValueTypes();
  }

  lemma EncodeFieldIsEncode1(f: Field1, v: int)
    ensures InRange1(f, v) <==> InRange(Value1(f), v)
    ensures InRange1(f, v) ==> ByteToNat(EncodeField1(f, v)) == Encode(Value1(f), v)
  {
    RangesMatchValueTypes();
  }

  function Interpret(x: RawFields): StepValues {
    StepValues(
      x.gate != 0,
      x.slide != 0,
      DecodeField0(GateProbabilityField, x.gateProbability),
      DecodeField0(LengthField, x.length),
      DecodeField0(LengthVariationRangeField, x.lengthVariationRange),
      DecodeField0(LengthVariationProbabilityField, x.lengthVariationProbability),
      DecodeField0(NoteField, x.note),
      DecodeField0(NoteVariationRangeField, x.noteVariationRange),
      DecodeField0(NoteVariationProbabilityField, x.noteVariationProbability),
      DecodeField1(RetriggerField, x.retrigger),
      DecodeField1(RetriggerProbabilityField, x.retriggerProbability))
  }

  /** `v` with the parameter held in field `f` of word 0 replaced by `n`. */
  function WithValue0(v: StepValues, f: Field0, n: int): StepValues {
    match f
    case GateField => v.(gate := n != 0)
    case SlideField => v.(slide := n != 0)
    case GateProbabilityField => v.(gateProbability := n)
    case LengthField => v.(length := n)
    case LengthVariationRangeField => v.(lengthVariationRange := n)
    case LengthVariationProbabilityField => v.(lengthVariationProbability := n)
    case NoteField => v.(note := n)
    case NoteVariationRangeField => v.(noteVariationRange := n)
    case NoteVariationProbabilityField => v.(noteVariationProbability := n)
  }

  function WithValue1(v: StepValues, f: Field1, n: int): StepValues {
    match f
    case RetriggerField => v.(retrigger := n)
    case RetriggerProbabilityField => v.(retriggerProbability := n)
  }

  lemma InterpretWith0(x: RawFields, f: Field0, y: bv8)
    ensures Interpret(WithField0(x, f, y)) == WithValue0(Interpret(x), f, DecodeField0(f, y))
  {
    match f
    case GateField => {}
    case SlideField => {}
    case GateProbabilityField => {}
    case LengthField => {}
    case LengthVariationRangeField => {}
    case LengthVariationProbabilityField => {}
    case NoteField => {}
    case NoteVariationRangeField => {}
    case NoteVariationProbabilityField => {}
  }

  lemma InterpretWith1(x: RawFields, f: Field1, y: bv8)
    ensures Interpret(WithField1(x, f, y)) == WithValue1(Interpret(x), f, DecodeField1(f, y))
  {
  }

  //----------------------------------------
  // Typed accessors
  //----------------------------------------

  /** A flag reads as set exactly when its one-bit field holds 1. */
  function Gate(s: Step): (b: bool)
    ensures b <==> Get0(s.data0, GateField) == 1
  {
    Get0(s.data0, GateField) != 0
  }

  function Slide(s: Step): (b: bool)
    ensures b <==> Get0(s.data0, SlideField) == 1
  {
    Get0(s.data0, SlideField) != 0
  }

  /** A numeric parameter reads as its type's minimum plus the raw field content. */
  function GateProbability(s: Step): (v: int)
    ensures InRange0(GateProbabilityField, v)
    ensures v == Min0(GateProbabilityField) + ByteToNat(Get0(s.data0, GateProbabilityField))
  {
    DecodeField0(GateProbabilityField, Get0(s.data0, GateProbabilityField))
  }

  function Length(s: Step): (v: int)
    ensures InRange0(LengthField, v)
    ensures v == Min0(LengthField) + ByteToNat(Get0(s.data0, LengthField))
  {
    DecodeField0(LengthField, Get0(s.data0, LengthField))
  }

  function LengthVariationRange(s: Step): (v: int)
    ensures InRange0(LengthVariationRangeField, v)
    ensures v == Min0(LengthVariationRangeField) + ByteToNat(Get0(s.data0, LengthVariationRangeField))
  {
    DecodeField0(LengthVariationRangeField, Get0(s.data0, LengthVariationRangeField))
  }

  function LengthVariationProbability(s: Step): (v: int)
    ensures InRange0(LengthVariationProbabilityField, v)
    ensures v == Min0(LengthVariationProbabilityField) + ByteToNat(Get0(s.data0, LengthVariationProbabilityField))
  {
    DecodeField0(LengthVariationProbabilityField, Get0(s.data0, LengthVariationProbabilityField))
  }

  function Note(s: Step): (v: int)
    ensures InRange0(NoteField, v)
    ensures v == Min0(NoteField) + ByteToNat(Get0(s.data0, NoteField))
  {
    DecodeField0(NoteField, Get0(s.data0, NoteField))
  }

  function NoteVariationRange(s: Step): (v: int)
    ensures InRange0(NoteVariationRangeField, v)
    ensures v == Min0(NoteVariationRangeField) + ByteToNat(Get0(s.data0, NoteVariationRangeField))
  {
    DecodeField0(NoteVariationRangeField, Get0(s.data0, NoteVariationRangeField))
  }

  function NoteVariationProbability(s: Step): (v: int)
    ensures InRange0(NoteVariationProbabilityField, v)
    ensures v == Min0(NoteVariationProbabilityField) + ByteToNat(Get0(s.data0, NoteVariationProbabilityField))
  {
    DecodeField0(NoteVariationProbabilityField, Get0(s.data0, NoteVariationProbabilityField))
  }

  function Retrigger(s: Step): (v: int)
    ensures InRange1(RetriggerField, v)
    ensures v == ByteToNat(Get1(s.data1, RetriggerField))
  {
    DecodeField1(RetriggerField, Get1(s.data1, RetriggerField))
  }

  function RetriggerProbability(s: Step): (v: int)
    ensures InRange1(RetriggerProbabilityField, v)
    ensures v == ByteToNat(Get1(s.data1, RetriggerProbabilityField))
  {
    DecodeField1(RetriggerProbabilityField, Get1(s.data1, RetriggerProbabilityField))
  }

  /** The parameters a step currently holds, as its typed getters return them. */
  function Unpack(s: Step): (v: StepValues)
    ensures ValidValues(v)
    ensures v == Interpret(Fields(s))
  {
    StepValues(
      Gate(s), Slide(s), GateProbability(s), Length(s),
      LengthVariationRange(s), LengthVariationProbability(s),
      Note(s), NoteVariationRange(s), NoteVariationProbability(s),
      Retrigger(s), RetriggerProbability(s))
  }

  /** Stores `v` into field `f` of word 0; word 1 is untouched. */
  function SetValue0(s: Step, f: Field0, v: int): (r: Step)
    requires InRange0(f, v)
    ensures Get0(r.data0, f) == EncodeField0(f, v)
    ensures Unpack(r) == WithValue0(Unpack(s), f, v)
    ensures r.data1 == s.data1
  {
    var y := EncodeField0(f, v);
    FieldsAfterSet0(s, f, y);
    InterpretWith0(Fields(s), f, y);
    s.(data0 := Set0(s.data0, f, y))
  }

  /** Stores `v` into field `f` of word 1; word 0 and the unused bits are untouched. */
  function SetValue1(s: Step, f: Field1, v: int): (r: Step)
    requires InRange1(f, v)
    ensures Get1(r.data1, f) == EncodeField1(f, v)
    ensures Unpack(r) == WithValue1(Unpack(s), f, v)
    ensures r.data0 == s.data0 && r.data1 >> 6 == s.data1 >> 6
  {
    var y := EncodeField1(f, v);
    FieldsAfterSet1(s, f, y);
    InterpretWith1(Fields(s), f, y);
    Frame1(s.data1, f, y);
    s.(data1 := Set1(s.data1, f, y))
  }

  function SetGate(s: Step, gate: bool): (r: Step)
    ensures Unpack(r) == Unpack(s).(gate := gate)
    ensures r.data1 == s.data1
  {
    SetValue0(s, GateField, if gate then 1 else 0)
  }

  function SetSlide(s: Step, slide: bool): (r: Step)
    ensures Unpack(r) == Unpack(s).(slide := slide)
    ensures r.data1 == s.data1
  {
    SetValue0(s, SlideField, if slide then 1 else 0)
  }

  function SetGateProbability(s: Step, v: int): (r: Step)
    requires InRange0(GateProbabilityField, v)
    ensures Unpack(r) == Unpack(s).(gateProbability := v)
    ensures r.data1 == s.data1
  {
    SetValue0(s, GateProbabilityField, v)
  }

  function SetLength(s: Step, v: int): (r: Step)
    requires InRange0(LengthField, v)
    ensures Unpack(r) == Unpack(s).(length := v)
    ensures r.data1 == s.data1
  {
    SetValue0(s, LengthField, v)
  }

  function SetLengthVariationRange(s: Step, v: int): (r: Step)
    requires InRange0(LengthVariationRangeField, v)
    ensures Unpack(r) == Unpack(s).(lengthVariationRange := v)
    ensures r.data1 == s.data1
  {
    SetValue0(s, LengthVariationRangeField, v)
  }

  function SetLengthVariationProbability(s: Step, v: int): (r: Step)
    requires InRange0(LengthVariationProbabilityField, v)
    ensures Unpack(r) == Unpack(s).(lengthVariationProbability := v)
    ensures r.data1 == s.data1
  {
    SetValue0(s, LengthVariationProbabilityField, v)
  }

  function SetNote(s: Step, v: int): (r: Step)
    requires InRange0(NoteField, v)
    ensures Unpack(r) == Unpack(s).(note := v)
    ensures r.data1 == s.data1
  {
    SetValue0(s, NoteField, v)
  }

  function SetNoteVariationRange(s: Step, v: int): (r: Step)
    requires InRange0(NoteVariationRangeField, v)
    ensures Unpack(r) == Unpack(s).(noteVariationRange := v)
    ensures r.data1 == s.data1
  {
    SetValue0(s, NoteVariationRangeField, v)
  }

  function SetNoteVariationProbability(s: Step, v: int): (r: Step)
    requires InRange0(NoteVariationProbabilityField, v)
    ensures Unpack(r) == Unpack(s).(noteVariationProbability := v)
    ensures r.data1 == s.data1
  {
    SetValue0(s, NoteVariationProbabilityField, v)
  }

  function SetRetrigger(s: Step, v: int): (r: Step)
    requires InRange1(RetriggerField, v)
    ensures Unpack(r) == Unpack(s).(retrigger := v)
    ensures r.data0 == s.data0 && r.data1 >> 6 == s.data1 >> 6
  {
    SetValue1(s, RetriggerField, v)
  }

  function SetRetriggerProbability(s: Step, v: int): (r: Step)
    requires InRange1(RetriggerProbabilityField, v)
    ensures Unpack(r) == Unpack(s).(retriggerProbability := v)
    ensures r.data0 == s.data0 && r.data1 >> 6 == s.data1 >> 6
  {
    SetValue1(s, RetriggerProbabilityField, v)
  }

  /** `toggleGate`: flips the gate and nothing else. */
  function ToggleGate(s: Step): (r: Step)
    ensures Gate(r) == !Gate(s)
    ensures Unpack(r) == Unpack(s).(gate := !Gate(s))
    ensures r.data1 == s.data1
  {
    SetGate(s, !Gate(s))
  }

  /** `toggleSlide`: flips the slide flag and nothing else. */
  function ToggleSlide(s: Step): (r: Step)
    ensures Slide(r) == !Slide(s)
    ensures Unpack(r) == Unpack(s).(slide := !Slide(s))
    ensures r.data1 == s.data1
  {
    SetSlide(s, !Slide(s))
  }

  /** Toggling the gate twice restores the step bit for bit. */
  lemma ToggleGateTwice(s: Step)
    ensures ToggleGate(ToggleGate(s)) == s
  {
    Set32OfGet32(s.data0, 0, 1);
  }

  /** Toggling the slide flag twice restores the step bit for bit. */
  lemma ToggleSlideTwice(s: Step)
    ensures ToggleSlide(ToggleSlide(s)) == s
  {
    Set32OfGet32(s.data0, 1, 1);
  }

  /**
   A step holding exactly the given values, built by the setters from the
   all-zero raw words. Every valid set of values is reachable this way.
   */
  function Pack(v: StepValues): (s: Step)
    requires ValidValues(v)
    ensures Unpack(s) == v
  {
    Overwrite(Step(0, 0), v)
  }

  /** Every field of `s` written with the setters: the result holds exactly `v`. */
  function Overwrite(s: Step, v: StepValues): (r: Step)
    requires ValidValues(v)
    ensures Unpack(r) == v
  {
    PackLate(PackMiddle(PackEarly(s, v), v), v)
  }

  function PackEarly(s: Step, v: StepValues): (r: Step)
    requires ValidValues(v)
    ensures Unpack(r) == Unpack(s).(gate := v.gate, slide := v.slide,
      gateProbability := v.gateProbability, length := v.length)
  {
    SetLength(SetGateProbability(SetSlide(SetGate(s, v.gate), v.slide), v.gateProbability), v.length)
  }

  function PackMiddle(s: Step, v: StepValues): (r: Step)
    requires ValidValues(v)
    ensures Unpack(r) == Unpack(s).(lengthVariationRange := v.lengthVariationRange,
      lengthVariationProbability := v.lengthVariationProbability,
      note := v.note, noteVariationRange := v.noteVariationRange)
  {
    SetNoteVariationRange(SetNote(SetLengthVariationProbability(
      SetLengthVariationRange(s, v.lengthVariationRange), v.lengthVariationProbability),
      v.note), v.noteVariationRange)
  }

  function PackLate(s: Step, v: StepValues): (r: Step)
    requires ValidValues(v)
    ensures Unpack(r) == Unpack(s).(noteVariationProbability := v.noteVariationProbability,
      retrigger := v.retrigger, retriggerProbability := v.retriggerProbability)
  {
    SetRetriggerProbability(SetRetrigger(
      SetNoteVariationProbability(s, v.noteVariationProbability), v.retrigger),
      v.retriggerProbability)
  }
}

=== FILE: option.dfy ===
/** An optional value: what a lookup or a read returns when it can fail. */
module Optional {

  datatype Option<T> = None | Some(value: T)
}

=== FILE: sequence_io.dfy ===
/**
 Serialisation of a `Sequence`: the header fields in a fixed order, then the
 step data of whichever sequence the owning track's mode selects.

 The writer and reader are modelled as a list of items. A header field is one
 `Int` item. The nested note- or curve-sequence write is one `NoteData` or
 `CurveData` item carrying that sequence, so a read of it gives back what was
 written. The mode of the track at `index` is a function of the index.
 */
module SequenceIo {
  import opened Optional

  /** `Track::Mode`: the two modes the dispatch handles, and any other. */
  datatype TrackMode = NoteMode | CurveMode | OtherMode

  /** One unit of the serialised stream. `N` is the note sequence, `C` the curve sequence. */
  datatype Item<N, C> = Int(n: int) | NoteData(note: N) | CurveData(curve: C)

  /** A sequence slot: play mode and step range, and both kinds of step data. */
  datatype Sequence<N, C> = Sequence(
    playMode: int,
    firstStep: int,
    lastStep: int,
    noteSequence: N,
    curveSequence: C)

  /** The header `write` emits first, in this order. */
  function Header<N, C>(s: Sequence<N, C>): seq<Item<N, C>> {
    [Int(s.playMode), Int(s.firstStep), Int(s.lastStep)]
  }

  /** The step data for the mode of the track at `index`. */
  function StepData<N, C>(s: Sequence<N, C>, trackMode: int -> TrackMode, index: int): (r: seq<Item<N, C>>)
    ensures trackMode(index) == NoteMode <==> r == [NoteData(s.noteSequence)]
    ensures trackMode(index) == CurveMode <==> r == [CurveData(s.curveSequence)]
    ensures trackMode(index) == OtherMode <==> r == []
  {
    match trackMode(index)
    case NoteMode => [NoteData(s.noteSequence)]
    case CurveMode => [CurveData(s.curveSequence)]
    case OtherMode => []
  }

  /** `Sequence::write`: appends the header, then the step data, to `out`. */
  function Write<N, C>(out: seq<Item<N, C>>, s: Sequence<N, C>, trackMode: int -> TrackMode, index: int): (r: seq<Item<N, C>>)
    ensures |r| == |out| + 3 + |StepData(s, trackMode, index)|
    ensures r[..|out|] == out
    ensures r[|out|] == Int(s.playMode)
    ensures r[|out| + 1] == Int(s.firstStep)
    ensures r[|out| + 2] == Int(s.lastStep)
    ensures r[|out| + 3..] == StepData(s, trackMode, index)
  {
    out + Header(s) + StepData(s, trackMode, index)
  }

  /** Reads one header field; a missing or mistyped item is a malformed stream. */
  function ReadInt<N, C>(input: seq<Item<N, C>>): (r: Option<(int, seq<Item<N, C>>)>)
    ensures r.Some? <==> |input| > 0 && input[0].Int?
    ensures r.Some? ==> r.value == (input[0].n, input[1..])
  {
    if |input| > 0 && input[0].Int? then Some((input[0].n, input[1..])) else None
  }

  /**
   `Sequence::read`: reads the header fields in the order `write` emits them,
   then the step data for the mode of the track at `index`. The sequence not
   selected by the mode keeps the value it had in `s`.
   */
  function Read<N, C>(input: seq<Item<N, C>>, s: Sequence<N, C>, trackMode: int -> TrackMode, index: int)
    : (r: Option<(Sequence<N, C>, seq<Item<N, C>>)>)
    ensures r.Some? ==> |r.value.1| <= |input|
    ensures r.Some? ==>
      |input| >= 3
      && input[0] == Int(r.value.0.playMode)
      && input[1] == Int(r.value.0.firstStep)
      && input[2] == Int(r.value.0.lastStep)
      && r.value.1 == input[|input| - |r.value.1|..]
    ensures r.Some? && trackMode(index) == NoteMode ==>
      |input| >= 4 && input[3] == NoteData(r.value.0.noteSequence) && r.value.1 == input[4..]
    ensures r.Some? && trackMode(index) == CurveMode ==>
      |input| >= 4 && input[3] == CurveData(r.value.0.curveSequence) && r.value.1 == input[4..]
    ensures r.Some? && trackMode(index) == OtherMode ==> r.value.1 == input[3..]
    ensures r.Some? ==> trackMode(index) != NoteMode ==> r.value.0.noteSequence == s.noteSequence
    ensures r.Some? ==> trackMode(index) != CurveMode ==> r.value.0.curveSequence == s.curveSequence
  {
    match ReadInt(input)
    case None => None
    case Some((playMode, rest1)) =>
      match ReadInt(rest1)
      case None => None
      case Some((firstStep, rest2)) =>
        match ReadInt(rest2)
        case None => None
        case Some((lastStep, rest3)) =>
          var h := s.(playMode := playMode, firstStep := firstStep, lastStep := lastStep);
          match trackMode(index)
          case NoteMode =>
            if |rest3| > 0 && rest3[0].NoteData? then Some((h.(noteSequence := rest3[0].note), rest3[1..])) else None
          case CurveMode =>
            if |rest3| > 0 && rest3[0].CurveData? then Some((h.(curveSequence := rest3[0].curve), rest3[1..])) else None
          case OtherMode => Some((h, rest3))
  }

  /**
   Reading what `write` produced, with the track at `index` in the same mode,
   gives back the header fields and the selected step data, and leaves the
   rest of the stream for the next reader.
   */
  lemma ReadWrite<N, C>(s: Sequence<N, C>, s0: Sequence<N, C>, trackMode: int -> TrackMode, index: int, rest: seq<Item<N, C>>)
    ensures Read(Write([], s, trackMode, index) + rest, s0, trackMode, index)
      == Some((s.(
        noteSequence := if trackMode(index) == NoteMode then s.noteSequence else s0.noteSequence,
        curveSequence := if trackMode(index) == CurveMode then s.curveSequence else s0.curveSequence),
      rest))
  {
    var w := Write([], s, trackMode, index) + rest;
    assert w[..3] == Header(s);
    assert w[3..] == StepData(s, trackMode, index) + rest;
    assert ReadInt(w) == Some((s.playMode, w[1..]));
    assert ReadInt(w[1..]) == Some((s.firstStep, w[2..]));
    assert ReadInt(w[2..]) == Some((s.lastStep, w[3..]));
    match trackMode(index)
    case NoteMode =>
      assert w[3..][1..] == rest;
    case CurveMode =>
      assert w[3..][1..] == rest;
    case OtherMode =>
  }

  /** With the mode unchanged and the other step data already equal, the round trip restores the sequence exactly. */
  lemma ReadWriteRestores<N, C>(s: Sequence<N, C>, s0: Sequence<N, C>, trackMode: int -> TrackMode, index: int)
    requires trackMode(index) != NoteMode ==> s0.noteSequence == s.noteSequence
    requires trackMode(index) != CurveMode ==> s0.curveSequence == s.curveSequence
    ensures Read(Write([], s, trackMode, index), s0, trackMode, index) == Some((s, []))
  {
    ReadWrite(s, s0, trackMode, index, []);
    assert Write([], s, trackMode, index) + [] == Write([], s, trackMode, index);
  }

  /**
   A track in neither Note nor Curve mode reads the three header fields and
   nothing more: whatever follows stays in the stream for the next reader,
   as the `switch` without a default does.
   */
  lemma ReadInOtherModeTakesHeaderOnly<N, C>(input: seq<Item<N, C>>, s: Sequence<N, C>,
      trackMode: int -> TrackMode, index: int, playMode: int, firstStep: int, lastStep: int)
    requires trackMode(index) == OtherMode
    requires |input| >= 3 && input[..3] == [Int(playMode), Int(firstStep), Int(lastStep)]
    ensures Read(input, s, trackMode, index)
      == Some((s.(playMode := playMode, firstStep := firstStep, lastStep := lastStep), input[3..]))
  {
    assert input[0] == Int(playMode) && input[1] == Int(firstStep) && input[2] == Int(lastStep);
    assert input[1..][1..] == input[2..] && input[2..][1..] == input[3..];
  }
}
